=== FILE: README.md ===
# ruqqus client core, in Dafny

A model of the Ruby `ruqqus` gem, a REST client for the Ruqqus link
aggregator, and proofs about it. The model covers five parts of the gem:

- the validation patterns and OAuth helpers of the `Ruqqus` module;
- the `Ruqqus::Token` OAuth token: expiry, scopes, refresh with its callback,
  and JSON save and load;
- the entity types, in both revisions: the `types/` classes built by
  `from_json`, and the older `Submission`/`Post`/`Comment` classes with
  lazily fetched relations;
- the `Ruqqus::Client` argument checks, request shaping, deletes, post and
  comment submission, availability checks and the paged user enumeration;
- the HTTP wrapper with its refresh gate and session-cookie capture.

The server, the clock, `JSON.parse`, the file system, the image host and
`URI.regexp` are parameters. A request is a value handed to a `Network`
function, and the client records every request and callback call in a log.
Ruby values are one `Value` datatype (nil, booleans, integers, strings,
arrays, symbol-keyed hashes). Ruby's truthiness, `Hash#[]`, `String#split`,
`strip`, `sub(/^p/, '')`, `to_s`, `to_i` and the line anchors `^`/`$` are
written out explicitly. An exception is an `Err` carrying its class (and
message where the code gives one). The `rescue` modifier is modelled as
catching everything except a stack overflow.

Modules, one per file:

- `RubyText` (`text.dfy`): the Ruby string operations the gem relies on.
- `Values` (`values.dfy`): Ruby values, errors, truthiness, `to_s`, `empty?`.
- `Http` (`http.dfy`): requests, responses, the version, headers and routes.
- `Patterns` (`patterns.dfy`): the four validation patterns.
- `Ruqqus` (`ruqqus.dfy`): `authorize_url`, the query parsing of
  `wait_for_code`, and the module-level availability checks.
- `Tokens` (`token.dfy`): `Ruqqus::Token`.
- `Entities` (`entities.dfy`): the classes under `types/`.
- `Legacy` (`legacy.dfy`): the older entity classes.
- `Paging` (`paging.dfy`): the page loop of `each_user_submission`.
- `Client` (`client.dfy`): `Ruqqus::Client`.

## Model

| member | source | states |
|---|---|---|
| Values.IsEmpty | lib/ruqqus/client.rb:365 | `empty?` is defined on strings, arrays and hashes only, and holds exactly for `""`, `[]` and `{}` |
| Values.IntRoundTrip | lib/ruqqus/types/guild.rb:91-93 | `to_i` of an integer's decimal text gives the integer back |
| Values.OrElse | lib/ruqqus/types/user.rb:62-76 | `v \|\| fallback` is `v` when truthy and the fallback otherwise |
| RubyText.SplitOfJoin | lib/ruqqus/token.rb:65-67 | splitting a separator-join of non-empty, separator-free pieces gives the pieces back |
| RubyText.JoinOfFields | lib/ruqqus.rb:214-215 | the raw fields of a split join back to the string and contain no separator |
| RubyText.SubLinePrefixFirst | lib/ruqqus/client.rb:104 | `sub(/^p/, '')` removes `p` at the first line start where it occurs and keeps everything else |
| RubyText.SubLinePrefixUnchanged | lib/ruqqus/client.rb:104 | `sub(/^p/, '')` leaves a string unchanged when no line of it begins with `p` |
| RubyText.StripSpec | lib/ruqqus/client.rb:159 | `strip` removes exactly the leading and trailing NUL and ASCII whitespace |
| Patterns.MatchValue | lib/ruqqus.rb:24-32 | `match?` of a line pattern: a string is matched line by line, nil does not match, anything else raises `TypeError` |
| Patterns.MatchesIffRegex | lib/ruqqus.rb:24-32 | the line-by-line definition agrees with a direct reading of `^…$`: some substring between line boundaries fits the pattern body |
| Patterns.UsernameLine | lib/ruqqus.rb:24 | a name without line breaks passes `VALID_USERNAME.match?` iff it has 5 to 25 characters, all of them `[A-Za-z0-9_]` |
| Patterns.GuildLine | lib/ruqqus.rb:32 | a line fits the guild pattern iff it has 3 to 25 word characters and does not start with `_` |
| Patterns.FitsHasNoNewline | lib/ruqqus.rb:24-32 | no pattern body can match across a newline |
| Patterns.SingleLineMatches | lib/ruqqus.rb:24-32 | on a string without newlines, matching is fitting the whole string |
| Patterns.LastLineSuffices | lib/ruqqus.rb:24-32 | a multi-line string passes as soon as its last line fits, although the string as a whole does not fit |
| Patterns.PostIdIffRegex | lib/ruqqus.rb:36 | the unanchored post-id pattern accepts exactly the strings holding an ASCII letter or digit |
| Patterns.MatchPostId | lib/ruqqus.rb:36 | `VALID_POST.match?`: strings by content, nil false, other values raise |
| Ruqqus.GrantedScopes | lib/ruqqus.rb:154-157 | `identity` is appended once, at the end, exactly when a scope needs it and it is missing; otherwise the list is unchanged |
| Ruqqus.AuthorizeUrl | lib/ruqqus.rb:147-166 | the error order (redirect URI, empty scopes, unknown scope, nil client id), and success exactly when every check passes, and then the URL is the endpoint, `?`, and the five `key=value` segments joined by `&` in source order, values unencoded |
| Ruqqus.AuthorizeUrlRoundTrip | lib/ruqqus.rb:159-165 | for a client id, redirect and state that are non-empty and hold no `&` or `=`, the query of a generated URL splits on `&` into `client_id`, `redirect_uri`, `scope`, `state` and `permanent`, in that order, and parsing it gives back the client id, redirect, comma-joined granted scopes, the state (`csrf` when given) and permanence |
| Ruqqus.RedirectWithEqualsCut | lib/ruqqus.rb:161 | a redirect URI holding `=` is read back from its segment cut at the second field, since values are not encoded |
| Ruqqus.QueryRoundTrip | lib/ruqqus.rb:214-218 | the query parser reads the five `key=value` segments of an authorize query back as a map |
| Ruqqus.BoundIffSomeSegment | lib/ruqqus.rb:214-218 | a key is in the parsed query iff some segment has that key and a value; segments like `code=` or `flag` are skipped |
| Ruqqus.LastBindingWins | lib/ruqqus.rb:217 | a key's value comes from the last segment binding it |
| Ruqqus.Available | lib/ruqqus.rb:274-278 | `available?`: a falsy or non-matching name is unavailable with no request, a truthy non-string raises TypeError; otherwise a transport failure raises, and the decoded reply is looked up under the name |
| Ruqqus.Lookup | lib/ruqqus.rb:277 | `json[name]` on a hash is its truthiness, on a string a substring test, on anything else an error |
| Ruqqus.AvailabilityIgnoresName | lib/ruqqus.rb:119-131 | the module-level checks ask about `Module#name` ("Ruqqus"), so two valid names get answers about the same request |
| Tokens.Expired | lib/ruqqus/token.rb:103-105 | `expired?` iff `expires_at <= now` in whole seconds; a non-number raises |
| Tokens.ExpiredStaysExpired | lib/ruqqus/token.rb:103-105 | once expired, a token stays expired as time goes on |
| Tokens.Scopes | lib/ruqqus/token.rb:65-67 | the stored scopes split on `,`: comma-free names, no empty last name; a non-string raises |
| Tokens.ScopesRoundTrip | lib/ruqqus/token.rb:65-67 | a comma-join of non-empty, comma-free names reads back as the same list |
| Tokens.RefreshRequest | lib/ruqqus/token.rb:74-75 | the refresh request: POST to the grant URL with `Bearer <access token>`, the refresh token, the credentials and `grant_type` `refresh` |
| Tokens.Refresh | lib/ruqqus/token.rb:73-82 | accepted iff status 200 or an `oauth_error`; the reply is merged key by key over the data; the callback, if set, is called once with the merged token; a non-hash body raises TypeError in `merge!` after a 200 and the key-read error of line 79 otherwise |
| Tokens.OAuthErrorIsMerged | lib/ruqqus/token.rb:79-80 | a non-200 reply carrying `oauth_error` does not raise and is merged |
| Tokens.OnRefresh | lib/ruqqus/token.rb:95-99 | a block is required; it replaces the earlier one and leaves the data alone |
| Tokens.RefreshCallsRegisteredBlock | lib/ruqqus/token.rb:95-99 | after `on_refresh`, an accepted refresh calls the new block exactly once with the merged token |
| Tokens.RefreshWithoutBlock | lib/ruqqus/token.rb:81 | with no block set, a refresh only sends its request |
| Tokens.FromJson | lib/ruqqus/token.rb:139-146 | a hash document with a hash `data` gives the token's credentials and data, with no callback; a non-hash document raises the error of its first key read |
| Tokens.JsonRoundTrip | lib/ruqqus/token.rb:109-146 | loading a saved token restores credentials and data; the callback is not saved |
| Tokens.Grant | lib/ruqqus/token.rb:36-46 | the grant succeeds iff the reply body is a hash without `oauth_error`, and raises "failed to grant access for token" when it has one; a non-hash body raises the error of reading `oauth_error` from it |
| Tokens.GrantIgnoresStatus | lib/ruqqus/token.rb:36-46 | the grant's result does not depend on the status code |
| Entities.FromJson | lib/ruqqus/types/item_base.rb:59-64 | a hash is used as is; a string is parsed and must give a hash; no field is checked |
| Entities.FromJsonKeepsData | lib/ruqqus/types/item_base.rb:59-64 | building from a hash or from text that parses to it gives the same item |
| Entities.SameIsEquivalence | lib/ruqqus/types/item_base.rb:33-35 | `==` (same class and same id) is an equivalence, and items of different classes differ |
| Entities.SameIgnoresOtherFields | lib/ruqqus/types/item_base.rb:33-35 | two items of one class with the same id are equal whatever their other fields |
| Entities.Read | lib/ruqqus/types/item_base.rb:37-51 | a pass-through accessor returns its field unchanged, or nil when absent |
| Entities.RenamedAccessors | lib/ruqqus/types/submission.rb:95-97 | `author_name`, `last_edit_utc`, `parent_id` and `post_id` read the keys `author`, `edited_utc`, `parent` and `post` |
| Entities.ReadAfterFromJson | lib/ruqqus/types/item_base.rb:59-64 | every accessor of an item built from a hash reads that hash's field |
| Entities.Banned | lib/ruqqus/types/item_base.rb:27-29 | `banned?` is the truthiness of `is_banned`; absent or nil gives false |
| Entities.Created | lib/ruqqus/types/item_base.rb:41-43 | `created` is derived from `created_utc`; a non-number raises |
| Entities.Edited | lib/ruqqus/types/submission.rb:55-57 | `edited?` iff `edited_utc` is not 0 |
| Entities.AbsentEditCountsAsEdited | lib/ruqqus/types/submission.rb:55-57 | a missing `edited_utc` counts as edited |
| Entities.HasFlag | lib/ruqqus/types/submission.rb:61-87 | each content flag is the boolean truthiness of its field |
| Entities.Display | lib/ruqqus/types/submission.rb:91-93 | `to_s`: a submission shows its id; a user or guild its name when truthy, otherwise `inspect` |
| Entities.Url | lib/ruqqus/types/post.rb:65-68 | `url` is nil for an empty or absent field and the stored value otherwise |
| Entities.UrlNeverEmpty | lib/ruqqus/types/post.rb:65-68 | `url` never returns an empty value, and is unchanged by storing its own result |
| Entities.NewWrapper | lib/ruqqus/badge.rb:30-32 | a badge or title wrapper needs data; nil raises |
| Entities.AuthorTitle | lib/ruqqus/types/post.rb:40-43 | `author_title` is nil iff its field is falsy, otherwise a new wrapper of it; a set memo is returned as it is |
| Entities.AuthorTitleMemoised | lib/ruqqus/types/post.rb:42 | the second read returns the very same wrapper and creates none |
| Entities.WrapAll | lib/ruqqus/types/user.rb:88-91 | mapping wrappers over a list keeps order and length, and fails on the first falsy element |
| Entities.Badges | lib/ruqqus/types/user.rb:88-91 | `badges` wraps each element of the `badges` array in order, and is memoised |
| Entities.BadgesMemoised | lib/ruqqus/types/user.rb:88-91 | a second read of `badges` returns the same wrappers and creates none |
| Entities.UserTitle | lib/ruqqus/types/user.rb:93-96 | `title` is nil for a falsy field and otherwise recurses into itself without end |
| Entities.Counter | lib/ruqqus/types/user.rb:62-76 | each count is its field when truthy and 0 otherwise |
| Entities.TotalRep | lib/ruqqus/types/user.rb:78-80 | `total_rep` adds the two defaulted reputations |
| Entities.TotalRepIsSum | lib/ruqqus/types/user.rb:78-80 | with integer or absent reputations, `total_rep` is their sum with 0 for the absent ones |
| Entities.CountOf | lib/ruqqus/types/guild.rb:91-97 | `to_i` of a field: nil gives 0, an integer itself, a string the numeral `String#to_i` reads at its front |
| Entities.CountOfGroupedText | lib/ruqqus/types/guild.rb:91-97 | `to_i` reads `1_000` as 1000 and ` -2_5x` as -25, and stops at a doubled underscore |
| Entities.GuildCount | lib/ruqqus/types/guild.rb:91-97 | `member_count` and `guildmaster_count` are `subscriber_count` and `mods_count` as integers, 0 when absent |
| Entities.CountOfDecimalText | lib/ruqqus/types/guild.rb:91-97 | a count stored as decimal text reads the same as the number |
| Entities.GuildNsfw | lib/ruqqus/types/guild.rb:45-47 | a guild's `nsfw?` is `over_18` raw, nil when absent |
| Entities.GuildHas | lib/ruqqus/types/guild.rb:51-59 | `private?` and `restricted?` are the boolean truthiness of `is_private` and `is_restricted` |
| Entities.ParentComment | lib/ruqqus/types/comment.rb:22-24 | `parent_comment?` iff `level > 1`; a level that is not a number raises |
| Entities.ParentPost | lib/ruqqus/types/comment.rb:28-30 | `parent_post?` iff `level == 1` |
| Entities.ParentKindByLevel | lib/ruqqus/types/comment.rb:22-30 | for a level of at least 1 exactly one of the two holds; below 1 neither does |
| Legacy.Lazy | lib/ruqqus/submission.rb:18-21 | `@slot \|\|= key ? fetch(key) : nil`: no call for a set slot or a falsy key, otherwise one call whose non-nil result is kept |
| Legacy.LazyMemoised | lib/ruqqus/submission.rb:18-21 | after a fetch found an item, the next read returns it with no call |
| Legacy.LazyRetriesNil | lib/ruqqus/submission.rb:20 | a fetch that answered nil is not remembered, so the next read calls again |
| Legacy.Author | lib/ruqqus/submission.rb:18-21 | `author` fetches the user named by `author_name`, with no call when that is nil |
| Legacy.GuildOf | lib/ruqqus/submission.rb:115-118 | `guild` fetches the guild named by `guild_name`, with no call when that is nil |
| Legacy.OriginalGuild | lib/ruqqus/post.rb:34-36 | `original_guild` fetches by `original_guild_name`, with no call when that is nil |
| Legacy.Parent | lib/ruqqus/comment.rb:23-26 | `parent` fetches `parent_id` as a comment when `level > 1` and as a post otherwise, and keeps what it found |
| Legacy.ParentByLevel | lib/ruqqus/comment.rb:23-26 | the fetch kind follows the level, and a found parent is not fetched again |
| Legacy.PostOf | lib/ruqqus/comment.rb:36-39 | `post` fetches `post_id` on every call and keeps nothing |
| Legacy.ParentFetchedOnce | lib/ruqqus/comment.rb:23-26 | two reads of a top-level comment's found `parent` make one fetch in all |
| Legacy.FullName | lib/ruqqus/submission.rb:103-105 | `full_name` reads the `fullname` field |
| Legacy.FullNameAgrees | lib/ruqqus/submission.rb:103-105 | the older `full_name` and the newer `fullname` agree |
| Legacy.RawUrl | lib/ruqqus/post.rb:42-44 | the older `url` returns the field unchanged, empty string included |
| Legacy.UrlVariants | lib/ruqqus/post.rb:42-44 | the two `url` variants differ exactly on an empty stored value |
| Legacy.PostDisplay | lib/ruqqus/post.rb:48-50 | the older post `to_s` is the title when truthy, otherwise `inspect` |
| Legacy.DisplayVariants | lib/ruqqus/post.rb:48-50 | a titled post shows its title in the older class and its id in the newer |
| Legacy.FromUrl | lib/ruqqus/post.rb:61-63 | the `from_url` stubs return nil for every URL |
| Paging.View | lib/ruqqus/client.rb:391-393 | reading `json[:data]`: falsy data stops; an array gives its items; a hash or non-hash reply raises as Ruby would |
| Paging.ConvertAll | lib/ruqqus/client.rb:392 | the items converted in order before the first conversion failure, and that failure |
| Paging.PageStep | lib/ruqqus/client.rb:388-394 | one turn: a turn that stops requested one page and, when it stops normally, yielded fewer than 25 items; a turn that goes on yielded at least 25 |
| Paging.Enumerate | lib/ruqqus/client.rb:386-395 | the loop computes the reference walk from page 1 |
| Paging.PagesConsecutive | lib/ruqqus/client.rb:386-394 | the pages requested are consecutive from the first, at least one and at most one per unit of fuel |
| Paging.FullPagesBeforeLast | lib/ruqqus/client.rb:393 | every page before the last one yielded at least 25 items |
| Paging.ShortPageStops | lib/ruqqus/client.rb:392-393 | a short page is the last page requested, and its items are still yielded |
| Paging.FailureStops | lib/ruqqus/client.rb:389 | a failed page request ends the enumeration with that error |
| Client.New | lib/ruqqus/client.rb:26-29 | a token is required; a new client has no session |
| Client.RefreshGate | lib/ruqqus/client.rb:338-340 | the token is refreshed exactly when `expired?` holds; a failed refresh raises the refresh's own error unchanged |
| Client.NoLeadTime | lib/ruqqus/client.rb:338-340 | a token expiring this very second is refreshed, one expiring a second later is not |
| Client.Headers | lib/ruqqus/client.rb:349-353 | defaults plus `Authorization`, overridden by the options; the `cookies` entry holds the session once one was captured, and is the caller's own `cookies` option before that |
| Client.Send | lib/ruqqus/client.rb:409-435 | refresh gate, then one logged request; a session cookie is captured from any reply; success iff a 2xx status with a body; a transport failure, a non-2xx status and a non-JSON body each raise their own error |
| Client.SessionKeptOnFailedStatus | lib/ruqqus/client.rb:413-414 | a session cookie is kept even from a reply whose status raises |
| Client.HeadersFollowRefresh | lib/ruqqus/client.rb:410-411 | without explicit headers, a request after a refresh carries the refreshed access token |
| Client.Validate | lib/ruqqus/client.rb:42-87 | each fetch kind's pattern check: strings are checked, nil fails, other values raise |
| Client.Fetch | lib/ruqqus/client.rb:40-89 | `user`/`guild`/`post`/`comment` raise on a falsy or failing identifier before any request; `comment` parses its URL text without a request; a valid user, guild or post id is fetched once, a failed request raises its error, and a reply is converted by `from_json` (a hash reply gives the item holding exactly that hash) |
| Client.FetchChecksFirst | lib/ruqqus/client.rb:41-87 | a rejected identifier gets the same answer whatever the server would say |
| Client.MultiLineUsernamePasses | lib/ruqqus/client.rb:42 | a multi-line name whose last line is a valid username passes the `user` guard |
| Client.Present | lib/ruqqus/client.rb:365 | the "nil or empty" check: passes iff the value is truthy and non-empty |
| Client.CommentTarget | lib/ruqqus/client.rb:103-113 | the submission id and parent fullname of `comment_create`, for post and comment objects and strings |
| Client.CommentParentIdempotent | lib/ruqqus/client.rb:112 | a comment id with or without `t3_` names the same parent, `t3_` + id |
| Client.PrefixedPostIdDoubled | lib/ruqqus/client.rb:106-107 | a post id given with `t3_` keeps it, so the parent fullname is `t3_t3_…` |
| Client.CommentSubmit | lib/ruqqus/client.rb:364-368 | a nil or empty body raises before any request; after that a failed request or a failed conversion gives nil, and a hash reply gives the comment holding exactly that hash |
| Client.CommentCreate | lib/ruqqus/client.rb:101-115 | `comment_create` submits its computed target; an unusable target raises |
| Client.EmptyCommentRefused | lib/ruqqus/client.rb:365 | an empty or nil body is refused with no request |
| Client.DeleteId | lib/ruqqus/client.rb:142-143 | the id deleted: the object's id, or the string without one line-initial `t3_` |
| Client.Delete | lib/ruqqus/client.rb:141-145 | true exactly when the reply body is empty; any failure of the request gives false |
| Client.DeleteByObjectOrText | lib/ruqqus/client.rb:142-143 | deleting by object and by `t3_`-prefixed id is the same request and answer |
| Client.BoardName | lib/ruqqus/client.rb:159 | the board name: a guild's name, or the string stripped and without one line-initial `+` |
| Client.BoardNameNormalised | lib/ruqqus/client.rb:159 | `+name` and `name` give the same board for a valid guild name |
| Client.WithBody | lib/ruqqus/client.rb:178-182 | a truthy body is added and a falsy one leaves the parameters untouched; with neither body nor URL set, a nil body raises the body error |
| Client.PostParams | lib/ruqqus/client.rb:158-182 | the errors in source order (guild name, guild pattern, title, missing image file, invalid URI), the upload's own exception passed through, nil after an upload with no link, and parameters holding title, board, a truthy body (no `body` entry for a falsy one), and the `url` (upload link or given URL) or `file` entry the options select |
| Client.BodyErrorExactly | lib/ruqqus/client.rb:172-182 | the body error is raised iff the arguments are valid, the body is nil and no URL or image link was set (a file attachment does not count), or the upload itself raised that error |
| Client.EmptyBodyAccepted | lib/ruqqus/client.rb:178 | an empty-string body is submitted as it is |
| Client.PostCreate | lib/ruqqus/client.rb:158-184 | checks first, one submission, nil for a failed request or a failed conversion, and the post holding exactly a hash reply |
| Client.Availability | lib/ruqqus/client.rb:240-256 | a name failing its pattern is unavailable with no request; otherwise the reply's truthiness under the name, false for a non-hash |
| Client.AvailabilityAsksForName | lib/ruqqus/client.rb:240-244 | the client's check asks about the given name and reads the answer under it |
| Client.EnumeratedName | lib/ruqqus/client.rb:383 | the enumerated name: a user's username; for another entity its `to_s` (a submission's id, a guild's name or `inspect`); for a plain value its `to_s` |
| Client.PageRequestUsesPriorToken | lib/ruqqus/client.rb:389-411 | a page request that triggers a refresh still carries the access token from before it |
| Client.EachUserSubmission | lib/ruqqus/client.rb:379-398 | the username is checked first; then pages 1, 2, 3, … are walked as the page loop describes |

## Left out

- `comment_reply`, `guild_posts`, `each_post`, `user_posts`, `user_comments`,
  `each_user_post` and `each_user_comment` are not modelled. They are thin
  callers of the modelled operations.
- `each_user_submission` without a block returns an enumerator; only the
  block form is modelled. The block is the sequence of yielded items.
- The commented-out voting and identity methods of the client are not modelled.
- Reading and writing files (`save_json`, `load_json`, `File.new`), the imgur
  upload, opening a browser and the local socket of `wait_for_code` are
  outside the model. Only the query parsing of `wait_for_code` is kept. The
  upload (lib/ruqqus.rb:100-110) is a parameter giving the link, nil, or the
  exception it raises, which `post_create` lets through.
- `JSON.parse` and `to_json` text are left out: tokens and entities are built
  from decoded values, and parsing is a parameter.
- `URI.regexp` is a parameter predicate, and `Time.now` is an integer parameter.
- `SecureRandom`/`Base64` state generation is a parameter string.
- `inspect` output is not modelled. `to_s` falls back to `None`, or to a
  fixed marker in the enumerated user name.
- The network is an abstract function from request to response, and a
  reply may carry any status code. RestClient's own exception for a status
  outside 200-207 is not modelled; only the client's own status check
  (lib/ruqqus/client.rb:414) stands in for it. The four members below
  therefore see replies that RestClient would have raised on.
- Tokens.Refresh: a non-200 reply reaches line 79's check, so a 400 reply
  carrying `oauth_error` is merged (Tokens.OAuthErrorIsMerged).
- Tokens.Grant: the status is never read, so any status with a hash body
  decides the grant (Tokens.GrantIgnoresStatus).
- Ruqqus.Available: the status of the reply is ignored.
- Client.Send: the session cookie is taken from a reply whose status then
  fails the check (Client.SessionKeptOnFailedStatus).
- Proxies and RestClient options are not modelled.
- Client.Fetch: the four fetchers read `Routes::USER_INFO`, `GUILD_INFO`,
  `POST_INFO` and `COMMENT_INFO` (lib/ruqqus/client.rb:43-88), which
  lib/ruqqus/routes.rb does not define; it defines `USER`, `GUILD`, `POST`
  and `COMMENT` (lib/ruqqus/routes.rb:17-29). As shipped, every fetch whose
  identifier passes its guard therefore raises NameError right after the
  guard, and `comment` never reaches its URL parse. The model instead uses
  the routes those names evidently mean, and so describes the intended
  fetch, not the NameError.
- Ruqqus.AuthorizeUrlRoundTrip: the read-back is proved only for values
  that are non-empty and hold no `&` or `=`. The URL does not encode its
  values, so other values do not come back intact (Ruqqus.RedirectWithEqualsCut
  shows a redirect with `=` cut short); the URL layout itself is stated for
  every input by Ruqqus.AuthorizeUrl.
- Client.CommentTarget: `Post#full_name` exists only in the older
  `lib/ruqqus/submission.rb`, so the client's `full_name` is `Legacy.FullName`.
- Entities.Badges: Ruby maps over a hash `badges` field as key-value pairs.
  The model makes such a field an error, because it does not model hash
  iteration order.
- Tokens.FromJson: a hash document whose `data` is absent or not a hash
  gives a token in Ruby, which fails only when an accessor reads `@data`.
  The model refuses it with TypeError, because its token keeps `data` as a
  hash.
- Entities.FromJson: text that parses to something other than a hash is
  refused at construction. Ruby stores it and fails at the first accessor.
- Entities.UserTitle: the recursion of `title` into itself is modelled as a
  `SystemStackError` result, not as the recursion.
- Paging.Enumerate: the loop has no bound in the source. The model runs it for
  at most `fuel` pages and reports `OutOfFuel` after that.
- Paging.View: the pages are not typed beyond the value datatype. `size` of a
  hash `data` and iteration of its pairs are reduced to an error for a
  non-empty hash.

=== FILE: client.dfy ===
/** `Ruqqus::Client`: argument checks, request shaping and the HTTP wrapper
    with its refresh gate and session capture. The server, the clock and the
    JSON parser come in through `Env`; the client's own state is its token,
    the session cookie it captured, and the log of what it did. */
module Client {
  import opened RubyText
  import opened Values
  import opened Patterns
  import opened Http
  import opened Tokens
  import opened Entities
  import Legacy
  import Paging

  /** The client: `@token`, `@session`, and the requests and refresh-callback
      calls made so far. */
  datatype State = State(token: Token, session: Option<string>, log: seq<Event>)

  /** The world outside the client: the time `Time.now` reads, the server,
      and `JSON.parse` on text. */
  datatype Env = Env(now: int, net: Network, parse: string -> Option<Value>)

  /** The client after an operation, and the value returned or the exception raised. */
  datatype Answer<T> = Answer(client: State, result: Result<T>)

  /** `Client.new(token)`: a token is required; there is no session yet. */
  function New(token: Option<Token>): (r: Result<State>)
    ensures token.None? <==> r == Err(ArgumentError("token cannot be nil"))
    ensures r.Ok? ==> r.value.token == token.value && r.value.session.None? && r.value.log == []
  {
    if token.None? then Err(ArgumentError("token cannot be nil")) else Ok(State(token.value, None, []))
  }

  /** `refresh_token`: refresh exactly when `expired?` holds; there is no
      margin before the expiry time. The value says whether it refreshed. */
  function RefreshGate(c: State, env: Env): (r: Answer<bool>)
    ensures Expired(c.token, env.now) == Ok(false) ==> r == Answer(c, Ok(false))
    ensures Expired(c.token, env.now).Err? ==> r == Answer(c, Err(TypeError))
    ensures Expired(c.token, env.now) == Ok(true) ==>
      var o := Refresh(c.token, env.net);
      r.client == c.(token := o.token, log := c.log + o.events)
      && (r.result.Ok? <==> o.failure.None?) && (r.result.Ok? ==> r.result.value)
      && (r.result.Err? ==> r.result.error == o.failure.value)
    ensures r.result.Err? ==> Rescuable(r.result.error)
  {
    match Expired(c.token, env.now)
    case Err(e) => Answer(c, Err(e))
    case Ok(expired) =>
      if !expired then Answer(c, Ok(false))
      else
        var o := Refresh(c.token, env.net);
        Answer(c.(token := o.token, log := c.log + o.events),
               if o.failure.Some? then Err(o.failure.value) else Ok(true))
  }

  /** A token whose expiry is this very second is refreshed; one that expires
      a second later is not. */
  lemma NoLeadTime(c: State, env: Env)
    requires Get(c.token.data, "expires_at") == Int(env.now)
    ensures RefreshGate(c, env).client.log == c.log + Refresh(c.token, env.net).events
    ensures RefreshGate(c.(token := c.token.(data := c.token.data["expires_at" := Int(env.now + 1)])), env).result == Ok(false)
  {
  }

  /** The `Authorization` value: token type and access token, space separated. */
  function Authorization(t: Token): Value
  {
    Str(ToS(TokenType(t)) + " " + ToS(AccessToken(t)))
  }

  /** `headers(**opts)`: the default headers plus authorization, overridden by
      `opts`, whose `cookies` entry is replaced by the session once one has
      been captured. */
  function Headers(c: State, opts: Payload): (r: Payload)
    ensures c.session.Some? ==> "cookies" in r && r["cookies"] == Hash(map["session" := Str(c.session.value)])
    ensures c.session.None? ==> ("cookies" in r <==> "cookies" in opts)
    ensures c.session.None? && "cookies" in opts ==> r["cookies"] == opts["cookies"]
    ensures forall k | k in opts && k != "cookies" :: k in r && r[k] == opts[k]
    ensures "Authorization" !in opts ==> "Authorization" in r && r["Authorization"] == Authorization(c.token)
    ensures forall k | k in DefaultHeaders && k !in opts :: k in r && r[k] == DefaultHeaders[k]
    ensures forall k | k in r :: k in DefaultHeaders || k == "Authorization" || k in opts || k == "cookies"
  {
    var base := DefaultHeaders["Authorization" := Authorization(c.token)];
    var extra := if c.session.Some? then opts["cookies" := Hash(map["session" := Str(c.session.value)])] else opts;
    base + extra
  }

  /** The request `http_get`/`http_post` sends once the gate has let it
      through: the given headers, or `headers` computed after any refresh. */
  function Outgoing(c: State, verb: Verb, url: string, params: Payload, header: Option<Payload>): Request
  {
    Request(verb, url, params, if header.Some? then header.value else Headers(c, map[]))
  }

  /** `http_get(uri, header)` and `http_post(uri, params, header)`: refresh
      gate, send, capture a session cookie from any reply, then insist on a
      2xx status and a JSON body. */
  function Send(c: State, verb: Verb, url: string, params: Payload, header: Option<Payload>, env: Env): (r: Answer<Value>)
    ensures RefreshGate(c, env).result.Err? ==> r == Answer(RefreshGate(c, env).client, Err(RefreshGate(c, env).result.error))
    ensures RefreshGate(c, env).result.Ok? ==>
      var g := RefreshGate(c, env).client;
      var req := Outgoing(g, verb, url, params, header);
      var resp := env.net(req);
      r.client.token == g.token && r.client.log == g.log + [Sent(req)]
      && (r.result.Ok? <==> resp.Reply? && 200 <= resp.code < 300 && resp.body.Some?)
      && (r.result.Ok? ==> r.result.value == resp.body.value)
      && (resp.Reply? && SessionCookie in resp.cookies ==> r.client.session == Some(resp.cookies[SessionCookie]))
      && (!(resp.Reply? && SessionCookie in resp.cookies) ==> r.client.session == c.session)
      && (resp.Failed? ==> r.result == Err(TransportError))
      && (resp.Reply? && !(200 <= resp.code < 300) ==> r.result == Err(RuqqusError("HTTP request failed")))
      && (resp.Reply? && 200 <= resp.code < 300 && resp.body.None? ==> r.result == Err(ParserError))
    ensures r.result.Err? ==> Rescuable(r.result.error)
  {
    var gate := RefreshGate(c, env);
    if gate.result.Err? then Answer(gate.client, Err(gate.result.error))
    else
      var g := gate.client;
      var req := Outgoing(g, verb, url, params, header);
      var c1 := g.(log := g.log + [Sent(req)]);
      match env.net(req)
      case Failed => Answer(c1, Err(TransportError))
      case Reply(code, cookies, body) =>
        var c2 := if SessionCookie in cookies then c1.(session := Some(cookies[SessionCookie])) else c1;
        if code < 200 || code >= 300 then Answer(c2, Err(RuqqusError("HTTP request failed")))
        else if body.None? then Answer(c2, Err(ParserError))
        else Answer(c2, Ok(body.value))
  }

  /** A session cookie is kept even from a reply whose status makes the call fail. */
  lemma SessionKeptOnFailedStatus(c: State, verb: Verb, url: string, params: Payload, env: Env, code: int, session: string)
    requires Expired(c.token, env.now) == Ok(false)
    requires code < 200 || code >= 300
    requires env.net(Outgoing(c, verb, url, params, None)) == Reply(code, map[SessionCookie := session], None)
    ensures Send(c, verb, url, params, None, env) == Answer(
      c.(session := Some(session), log := c.log + [Sent(Outgoing(c, verb, url, params, None))]),
      Err(RuqqusError("HTTP request failed")))
  {
  }

  /** Without explicit headers, a request that follows a refresh carries the
      refreshed access token, and the session captured so far. */
  lemma HeadersFollowRefresh(c: State, verb: Verb, url: string, params: Payload, env: Env)
    requires Expired(c.token, env.now) == Ok(true)
    requires RefreshAccepted(env.net(RefreshRequest(c.token)))
    ensures var t := Refresh(c.token, env.net).token;
      var h := Outgoing(RefreshGate(c, env).client, verb, url, params, None).headers;
      h["Authorization"] == Authorization(t)
      && (c.session.Some? ==> h["cookies"] == Hash(map["session" := Str(c.session.value)]))
  {
  }

  /** An argument that may be an entity object or a plain value (nil included). */
  datatype Arg = Obj(item: Item) | Val(v: Value)

  function Route(k: Kind): string
  {
    match k
    case UserKind => UserRoute
    case GuildKind => GuildRoute
    case PostKind => PostRoute
    case CommentKind => CommentRoute
  }

  function NilMessage(k: Kind): string
  {
    match k
    case UserKind => "username cannot be nil"
    case GuildKind => "guild_name cannot be nil"
    case PostKind => "post_id cannot be nil"
    case CommentKind => "comment_id cannot be nil"
  }

  function InvalidMessage(k: Kind): string
  {
    match k
    case UserKind => "invalid username"
    case GuildKind => "invalid guild name"
    case PostKind => "invalid post ID"
    case CommentKind => "invalid comment ID"
  }

  /** The pattern each fetch checks its identifier against. */
  function Validate(k: Kind, id: Value): (r: Result<bool>)
    ensures id.Str? ==> r.Ok?
    ensures r.Err? <==> !(id.Str? || id.Nil?)
  {
    match k
    case UserKind => MatchValue(LinePattern.Username, id)
    case GuildKind => MatchValue(LinePattern.GuildName, id)
    case PostKind => MatchPostId(id)
    case CommentKind => MatchPostId(id)
  }

  /** `user`, `guild`, `post` and `comment`: a falsy identifier and one that
      fails its pattern raise before anything is sent. `comment` then parses
      the URL text itself instead of fetching it. */
  function Fetch(c: State, k: Kind, id: Value, env: Env): (r: Answer<Item>)
    ensures !Truthy(id) ==> r == Answer(c, Err(ArgumentError(NilMessage(k))))
    ensures Truthy(id) && Validate(k, id) == Ok(false) ==> r == Answer(c, Err(ArgumentError(InvalidMessage(k))))
    ensures Truthy(id) && Validate(k, id).Err? ==> r == Answer(c, Err(TypeError))
    ensures (!(Truthy(id) && Validate(k, id) == Ok(true)) || k == CommentKind) ==> r.client == c
    ensures r.result.Ok? ==> r.result.value.kind == k && Truthy(id) && Validate(k, id) == Ok(true)
    ensures Truthy(id) && Validate(k, id) == Ok(true) && k != CommentKind ==>
      var a := Send(c, GET, Route(k) + ToS(id), map[], None, env);
      r.client == a.client
      && (a.result.Err? ==> r.result == Err(a.result.error))
      && (a.result.Ok? ==> r.result == Entities.FromJson(k, a.result.value, env.parse))
      && (a.result.Ok? && a.result.value.Hash? ==> r.result == Ok(Item(k, a.result.value.fields)))
    ensures Truthy(id) && Validate(k, id) == Ok(true) && k == CommentKind ==>
      r.result == Entities.FromJson(CommentKind, Str(CommentRoute + ToS(id)), env.parse)
  {
    if !Truthy(id) then Answer(c, Err(ArgumentError(NilMessage(k))))
    else match Validate(k, id)
      case Err(e) => Answer(c, Err(e))
      case Ok(valid) =>
        if !valid then Answer(c, Err(ArgumentError(InvalidMessage(k))))
        else if k == CommentKind then Answer(c, Entities.FromJson(CommentKind, Str(CommentRoute + ToS(id)), env.parse))
        else
          var a := Send(c, GET, Route(k) + ToS(id), map[], None, env);
          if a.result.Err? then Answer(a.client, Err(a.result.error))
          else Answer(a.client, Entities.FromJson(k, a.result.value, env.parse))
  }

  /** A rejected identifier gets the same answer whatever the server would
      have said: the check happens before any request. */
  lemma FetchChecksFirst(c: State, k: Kind, id: Value, env1: Env, env2: Env)
    requires !(Truthy(id) && Validate(k, id) == Ok(true))
    ensures Fetch(c, k, id, env1) == Fetch(c, k, id, env2)
  {
  }

  /** Because the patterns anchor to lines, a multi-line name whose last line
      is a valid username passes the guard of `user`. */
  lemma MultiLineUsernamePasses(a: string, b: string)
    requires LineFits(LinePattern.Username, b)
    ensures Truthy(Str(a + ['\n'] + b)) && Validate(UserKind, Str(a + ['\n'] + b)) == Ok(true)
  {
    LastLineSuffices(LinePattern.Username, a, b);
  }

  /** The error `raise(ArgumentError, message) unless v && !v.empty?` raises, if any. */
  function Present(v: Value, message: string): (r: Option<Error>)
    ensures r.None? <==> Truthy(v) && IsEmpty(v) == Ok(false)
    ensures !Truthy(v) || IsEmpty(v) == Ok(true) ==> r == Some(ArgumentError(message))
    ensures Truthy(v) && IsEmpty(v).Err? ==> r == Some(NoMethodError)
  {
    if !Truthy(v) then Some(ArgumentError(message))
    else match IsEmpty(v)
      case Err(e) => Some(e)
      case Ok(empty) => if empty then Some(ArgumentError(message)) else None
  }

  /** Whether `comment_create`'s comment argument replaces the parent. */
  predicate Overrides(comment: Arg)
  {
    comment.Obj? || Truthy(comment.v)
  }

  /** `comment_create`'s submission id and parent fullname. A post object
      gives its id and fullname; a string gives itself without one line-initial
      `t2_`, and `t3_` before that. A comment replaces the parent: a comment
      object by its fullname, a string by itself without one line-initial
      `t3_`, with `t3_` before it. Any other argument has no `sub`. */
  function CommentTarget(post: Arg, comment: Arg): (r: Result<(Value, Value)>)
    ensures r.Ok? <==>
      ((post.Obj? && post.item.kind == PostKind) || (post.Val? && post.v.Str?))
      && ((comment.Obj? && comment.item.kind == CommentKind) || (comment.Val? && (!Truthy(comment.v) || comment.v.Str?)))
    ensures r.Err? ==> r.error == NoMethodError
    ensures r.Ok? && post.Obj? ==> r.value.0 == Read(post.item, Id)
    ensures r.Ok? && post.Val? ==> r.value.0 == Str(SubLinePrefix(post.v.s, "t2_"))
    ensures r.Ok? && !Overrides(comment) ==>
      r.value.1 == (if post.Obj? then Legacy.FullName(post.item) else Str("t3_" + SubLinePrefix(post.v.s, "t2_")))
    ensures r.Ok? && comment.Obj? ==> r.value.1 == Legacy.FullName(comment.item)
    ensures r.Ok? && comment.Val? && Truthy(comment.v) ==> r.value.1 == Str("t3_" + SubLinePrefix(comment.v.s, "t3_"))
  {
    var base: Result<(Value, Value)> :=
      match post
      case Obj(it) =>
        if it.kind == PostKind then Ok((Read(it, Id), Legacy.FullName(it))) else Err(NoMethodError)
      case Val(v) =>
        if v.Str? then Ok((Str(SubLinePrefix(v.s, "t2_")), Str("t3_" + SubLinePrefix(v.s, "t2_"))))
        else Err(NoMethodError);
    if base.Err? then base
    else match comment
      case Obj(it) =>
        if it.kind == CommentKind then Ok((base.value.0, Legacy.FullName(it))) else Err(NoMethodError)
      case Val(v) =>
        if !Truthy(v) then base
        else if v.Str? then Ok((base.value.0, Str("t3_" + SubLinePrefix(v.s, "t3_"))))
        else Err(NoMethodError)
  }

  /** Re-prefixing a comment id is idempotent: `x` and `t3_x` name the same parent. */
  lemma CommentParentIdempotent(post: Arg, x: string)
    requires (post.Obj? && post.item.kind == PostKind) || (post.Val? && post.v.Str?)
    requires forall i :: !LineBeginsWith(x, "t3_", i)
    ensures CommentTarget(post, Val(Str("t3_" + x))) == CommentTarget(post, Val(Str(x)))
    ensures CommentTarget(post, Val(Str(x))).value.1 == Str("t3_" + x)
  {
    assert "t3_" <= "t3_" + x && ("t3_" + x)[3..] == x;
    SubLinePrefixAtStart("t3_" + x, "t3_");
    SubLinePrefixUnchanged(x, "t3_");
  }

  /** A post id given with its `t3_` prefix is not stripped (only `t2_` is), so
      the parent fullname gets the prefix twice. */
  lemma PrefixedPostIdDoubled(x: string)
    requires forall m | 0 <= m < |x| :: x[m] != '\n'
    ensures CommentTarget(Val(Str("t3_" + x)), Val(Nil)) == Ok((Str("t3_" + x), Str("t3_t3_" + x)))
  {
    var s := "t3_" + x;
    forall i
      ensures !LineBeginsWith(s, "t2_", i)
    {
      if 4 <= i <= |s| {
        assert s[i - 1] == x[i - 4];
      }
    }
    SubLinePrefixUnchanged(s, "t2_");
    assert "t3_" + s == "t3_t3_" + x;
  }

  /** `comment_submit`: the body must be a non-empty string (or array, or
      hash); after that check every failure, of the request or of the
      conversion, gives nil instead of an exception. */
  function CommentSubmit(c: State, parent: Value, pid: Value, body: Value, env: Env): (r: Answer<Option<Item>>)
    ensures Present(body, "body cannot be nil or empty").Some? ==>
      r == Answer(c, Err(Present(body, "body cannot be nil or empty").value))
    ensures Present(body, "body cannot be nil or empty").None? ==>
      r.result.Ok?
      && r.client == Send(c, POST, CommentRoute, map["submission" := pid, "parent_fullname" := parent, "body" := body], None, env).client
    ensures Present(body, "body cannot be nil or empty").None? ==>
      var a := Send(c, POST, CommentRoute, map["submission" := pid, "parent_fullname" := parent, "body" := body], None, env);
      (a.result.Err? ==> r.result == Ok(None))
      && (a.result.Ok? && a.result.value.Hash? ==> r.result == Ok(Some(Item(CommentKind, a.result.value.fields))))
      && (r.result.Ok? && r.result.value.Some? ==>
            a.result.Ok? && Entities.FromJson(CommentKind, a.result.value, env.parse) == Ok(r.result.value.value))
      && (a.result.Ok? && Entities.FromJson(CommentKind, a.result.value, env.parse).Err? ==> r.result == Ok(None))
    ensures r.result.Ok? && r.result.value.Some? ==> r.result.value.value.kind == CommentKind
  {
    match Present(body, "body cannot be nil or empty")
    case Some(e) => Answer(c, Err(e))
    case None =>
      var a := Send(c, POST, CommentRoute, map["submission" := pid, "parent_fullname" := parent, "body" := body], None, env);
      if a.result.Err? then Answer(a.client, Ok(None))
      else match Entities.FromJson(CommentKind, a.result.value, env.parse)
        case Ok(it) => Answer(a.client, Ok(Some(it)))
        case Err(_) => Answer(a.client, Ok(None))
  }

  /** `comment_create`: the target is worked out first, then submitted. */
  function CommentCreate(c: State, body: Value, post: Arg, comment: Arg, env: Env): (r: Answer<Option<Item>>)
    ensures CommentTarget(post, comment).Err? ==> r == Answer(c, Err(NoMethodError))
    ensures CommentTarget(post, comment).Ok? ==>
      var t := CommentTarget(post, comment).value;
      r == CommentSubmit(c, t.1, t.0, body, env)
  {
    match CommentTarget(post, comment)
    case Err(e) => Answer(c, Err(e))
    case Ok(t) => CommentSubmit(c, t.1, t.0, body, env)
  }

  /** An empty body is refused before any request, whatever the target. */
  lemma EmptyCommentRefused(c: State, post: Arg, env: Env)
    requires (post.Obj? && post.item.kind == PostKind) || (post.Val? && post.v.Str?)
    ensures CommentCreate(c, Str(""), post, Val(Nil), env) == Answer(c, Err(ArgumentError("body cannot be nil or empty")))
    ensures CommentCreate(c, Nil, post, Val(Nil), env) == Answer(c, Err(ArgumentError("body cannot be nil or empty")))
  {
  }

  /** The id `comment_delete` (`CommentKind`) or `post_delete` (`PostKind`)
      deletes: the object's id, or the string without one line-initial `t3_`. */
  function DeleteId(k: Kind, target: Arg): (r: Result<Value>)
    ensures r.Ok? <==> (target.Obj? && target.item.kind == k) || (target.Val? && target.v.Str?)
    ensures r.Ok? && target.Obj? ==> r.value == Read(target.item, Id)
    ensures r.Ok? && target.Val? ==> r.value == Str(SubLinePrefix(target.v.s, "t3_"))
    ensures r.Err? ==> r.error == NoMethodError
  {
    match target
    case Obj(it) => if it.kind == k then Ok(Read(it, Id)) else Err(NoMethodError)
    case Val(v) => if v.Str? then Ok(Str(SubLinePrefix(v.s, "t3_"))) else Err(NoMethodError)
  }

  function DeleteRoute(k: Kind): string
  {
    if k == CommentKind then ApiBase + "/delete/comment/" else ApiBase + "/delete_post/"
  }

  /** `comment_delete` and `post_delete`: true exactly when the server answers
      with an empty body; every failure of the request gives false. */
  function Delete(c: State, k: Kind, target: Arg, env: Env): (r: Answer<bool>)
    requires k == CommentKind || k == PostKind
    ensures DeleteId(k, target).Err? ==> r == Answer(c, Err(NoMethodError))
    ensures DeleteId(k, target).Ok? ==>
      var a := Send(c, POST, DeleteRoute(k) + ToS(DeleteId(k, target).value), map[], None, env);
      r.client == a.client && r.result.Ok?
      && (r.result.value <==> a.result.Ok? && IsEmpty(a.result.value) == Ok(true))
  {
    match DeleteId(k, target)
    case Err(e) => Answer(c, Err(e))
    case Ok(id) =>
      var a := Send(c, POST, DeleteRoute(k) + ToS(id), map[], None, env);
      if a.result.Err? then Answer(a.client, Ok(false))
      else match IsEmpty(a.result.value)
        case Err(_) => Answer(a.client, Ok(false))
        case Ok(empty) => Answer(a.client, Ok(empty))
  }

  /** Deleting by object and by prefixed id string is the same request. */
  lemma DeleteByObjectOrText(c: State, k: Kind, it: Item, x: string, env: Env)
    requires k == CommentKind || k == PostKind
    requires it.kind == k && Get(it.data, "id") == Str(x)
    ensures Delete(c, k, Obj(it), env) == Delete(c, k, Val(Str("t3_" + x)), env)
  {
    assert "t3_" <= "t3_" + x && ("t3_" + x)[3..] == x;
    SubLinePrefixAtStart("t3_" + x, "t3_");
  }

  /** The named options of `post_create` (nil when not given). */
  datatype PostOptions = PostOptions(image: Value, imgurClient: Value, url: Value)

  /** The file system, the image host and `URI.regexp`, none of which is
      part of this model: whether a path exists, what `Ruqqus.imgur_upload`
      gives (the link, nil when the reply names none, or the exception it
      raises), and whether a text is a URI. */
  datatype Io = Io(fileExists: Value -> bool, upload: (Value, Value) -> Result<Value>, isUri: Value -> bool)

  const BodyMessage: string := "text body cannot be nil or empty without URL or image"

  /** The board name `post_create` uses: a guild object's name, or the string
      stripped and without one line-initial `+`. */
  function BoardName(guild: Arg): (r: Result<Value>)
    ensures r.Ok? <==> (guild.Obj? && guild.item.kind == GuildKind) || (guild.Val? && guild.v.Str?)
    ensures r.Ok? && guild.Obj? ==> r.value == Read(guild.item, Name)
    ensures r.Ok? && guild.Val? ==> r.value == Str(SubLinePrefix(Strip(guild.v.s), "+"))
  {
    match guild
    case Obj(it) => if it.kind == GuildKind then Ok(Read(it, Name)) else Err(NoMethodError)
    case Val(v) => if v.Str? then Ok(Str(SubLinePrefix(Strip(v.s), "+"))) else Err(NoMethodError)
  }

  /** The guild and title pass their checks. */
  predicate ArgumentsValid(guild: Arg, title: Value)
  {
    BoardName(guild).Ok? && MatchValue(LinePattern.GuildName, BoardName(guild).value) == Ok(true)
    && Present(title, "title cannot be nil or empty").None?
  }

  /** Adding the body and raising the body error, once the media are settled. */
  function WithBody(params: Payload, body: Value): (r: Result<Option<Payload>>)
    ensures r.Ok? ==> (r.value.Some? && params.Keys <= r.value.value.Keys <= params.Keys + {"body"}
      && (forall k | k in params && k != "body" :: r.value.value[k] == params[k])
      && (Truthy(body) ==> "body" in r.value.value && r.value.value["body"] == body))
    ensures r.Ok? && !Truthy(body) ==> r.value.value == params
    ensures r.Err? <==> !Truthy(body) && !Truthy(Get(params, "body")) && !Truthy(Get(params, "url"))
    ensures r.Err? ==> r.error == (if body.Nil? then ArgumentError(BodyMessage) else NoMethodError)
  {
    var p := if Truthy(body) then params["body" := body] else params;
    if !Truthy(Get(p, "body")) && !Truthy(Get(p, "url")) then
      (if body.Nil? then Err(ArgumentError(BodyMessage)) else Err(NoMethodError))
    else Ok(Some(p))
  }

  /** The parameters `post_create` submits, `None` when the image upload gave
      no link (the call then returns nil without submitting), or the error it
      raises first. */
  function PostParams(guild: Arg, title: Value, body: Value, opts: PostOptions, io: Io): (r: Result<Option<Payload>>)
    ensures BoardName(guild).Ok? && MatchValue(LinePattern.GuildName, BoardName(guild).value) == Ok(false) ==>
      r == Err(ArgumentError("invalid guild name"))
    ensures (BoardName(guild).Ok? && MatchValue(LinePattern.GuildName, BoardName(guild).value) == Ok(true)
             && Present(title, "title cannot be nil or empty").Some?) ==>
      r == Err(Present(title, "title cannot be nil or empty").value)
    ensures r.Ok? ==> ArgumentsValid(guild, title)
    ensures r.Ok? && r.value.Some? ==>
      var p := r.value.value;
      "title" in p && p["title"] == title && "board" in p && p["board"] == BoardName(guild).value
      && (Truthy(body) ==> "body" in p && p["body"] == body)
      && (!Truthy(body) ==> "body" !in p)
      && p.Keys <= {"title", "board", "body", "url", "file"}
    ensures BoardName(guild).Err? ==> r == Err(BoardName(guild).error)
    ensures BoardName(guild).Ok? && MatchValue(LinePattern.GuildName, BoardName(guild).value).Err? ==>
      r == Err(MatchValue(LinePattern.GuildName, BoardName(guild).value).error)
    ensures ArgumentsValid(guild, title) && Truthy(opts.image) && !io.fileExists(opts.image) ==>
      r == Err(FileNotFound(ToS(opts.image)))
    ensures ArgumentsValid(guild, title) && Truthy(opts.image) && io.fileExists(opts.image)
            && Truthy(opts.imgurClient) && io.upload(opts.imgurClient, opts.image).Ok?
            && !Truthy(io.upload(opts.imgurClient, opts.image).value) ==>
      r == Ok(None)
    ensures ArgumentsValid(guild, title) && Truthy(opts.image) && io.fileExists(opts.image)
            && Truthy(opts.imgurClient) && io.upload(opts.imgurClient, opts.image).Err? ==>
      r == Err(io.upload(opts.imgurClient, opts.image).error)
    ensures ArgumentsValid(guild, title) && !Truthy(opts.image) && Truthy(opts.url) && !io.isUri(opts.url) ==>
      r == Err(ArgumentError("invalid URI"))
    ensures r.Ok? && r.value.Some? ==>
      var p := r.value.value;
      (Truthy(opts.image) && Truthy(opts.imgurClient) ==>
         io.upload(opts.imgurClient, opts.image).Ok?
         && "url" in p && p["url"] == io.upload(opts.imgurClient, opts.image).value && "file" !in p)
      && (Truthy(opts.image) && !Truthy(opts.imgurClient) ==>
         "file" in p && p["file"] == opts.image && "url" !in p)
      && (!Truthy(opts.image) && Truthy(opts.url) ==> "url" in p && p["url"] == opts.url && "file" !in p)
      && (!Truthy(opts.image) && !Truthy(opts.url) ==> "url" !in p && "file" !in p)
  {
    match BoardName(guild)
    case Err(e) => Err(e)
    case Ok(name) =>
      match MatchValue(LinePattern.GuildName, name)
      case Err(e) => Err(e)
      case Ok(valid) =>
        if !valid then Err(ArgumentError("invalid guild name"))
        else if Present(title, "title cannot be nil or empty").Some? then
          Err(Present(title, "title cannot be nil or empty").value)
        else
          var base := map["title" := title, "board" := name];
          if Truthy(opts.image) then
            if !io.fileExists(opts.image) then Err(FileNotFound(ToS(opts.image)))
            else if Truthy(opts.imgurClient) then
              match io.upload(opts.imgurClient, opts.image)
              case Err(e) => Err(e)
              case Ok(link) => if !Truthy(link) then Ok(None) else WithBody(base["url" := link], body)
            else WithBody(base["file" := opts.image], body)
          else if Truthy(opts.url) then
            if !io.isUri(opts.url) then Err(ArgumentError("invalid URI"))
            else WithBody(base["url" := opts.url], body)
          else WithBody(base, body)
  }

  /** The body error is raised exactly when the guild and title are valid,
      the body is nil, and no link was set: neither image nor URL was given,
      or an existing image is attached as a file, which does not count. The
      only other way to see that error is an upload raising it itself. */
  lemma BodyErrorExactly(guild: Arg, title: Value, body: Value, opts: PostOptions, io: Io)
    ensures PostParams(guild, title, body, opts, io) == Err(ArgumentError(BodyMessage)) <==>
      ArgumentsValid(guild, title)
      && ((body.Nil? && ((!Truthy(opts.image) && !Truthy(opts.url))
                         || (Truthy(opts.image) && io.fileExists(opts.image) && !Truthy(opts.imgurClient))))
          || (Truthy(opts.image) && io.fileExists(opts.image) && Truthy(opts.imgurClient)
              && io.upload(opts.imgurClient, opts.image) == Err(ArgumentError(BodyMessage))))
  {
  }

  /** An empty string is an acceptable body: it is submitted as it is. */
  lemma EmptyBodyAccepted(guild: Arg, title: Value, io: Io)
    requires ArgumentsValid(guild, title)
    ensures PostParams(guild, title, Str(""), PostOptions(Nil, Nil, Nil), io)
         == Ok(Some(map["title" := title, "board" := BoardName(guild).value, "body" := Str("")]))
  {
  }

  /** A guild name given as text with or without its `+` gives the same board. */
  lemma BoardNameNormalised(n: string)
    requires LineFits(LinePattern.GuildName, n)
    ensures BoardName(Val(Str("+" + n))) == BoardName(Val(Str(n))) == Ok(Str(n))
  {
    GuildLine(n);
    WordTextIsClean(n);
    PlusPrefixIsClean(n);
  }

  /** Word characters are neither stripped nor a `+`, so a word string is
      left alone by both steps of the board-name normalisation. */
  lemma WordTextIsClean(n: string)
    requires n != [] && forall i | 0 <= i < |n| :: IsWord(n[i])
    ensures Strip(n) == n && SubLinePrefix(n, "+") == n
  {
    assert IsWord(n[0]) && IsWord(n[|n| - 1]);
    StripClean(n);
    forall i
      ensures !LineBeginsWith(n, "+", i)
    {
      if 0 <= i < |n| {
        assert IsWord(n[i]) && n[i..i + 1][0] == n[i];
        assert i == 0 || IsWord(n[i - 1]);
      }
    }
    SubLinePrefixUnchanged(n, "+");
  }

  /** With a word character last, `+` followed by it is kept by `strip`
      and then loses its `+`. */
  lemma PlusPrefixIsClean(n: string)
    requires n != [] && IsWord(n[|n| - 1])
    ensures Strip("+" + n) == "+" + n && SubLinePrefix("+" + n, "+") == n
  {
    var s := "+" + n;
    assert s[0] == '+' && s[|s| - 1] == n[|n| - 1];
    StripClean(s);
    assert "+" <= s && s[1..] == n;
    SubLinePrefixAtStart(s, "+");
  }

  /** `post_create`: checks and parameters first, then one submission, whose
      every failure gives nil. */
  function PostCreate(c: State, guild: Arg, title: Value, body: Value, opts: PostOptions, io: Io, env: Env): (r: Answer<Option<Item>>)
    ensures PostParams(guild, title, body, opts, io).Err? ==>
      r == Answer(c, Err(PostParams(guild, title, body, opts, io).error))
    ensures PostParams(guild, title, body, opts, io) == Ok(None) ==> r == Answer(c, Ok(None))
    ensures PostParams(guild, title, body, opts, io).Ok? ==> r.result.Ok?
    ensures PostParams(guild, title, body, opts, io).Ok? && PostParams(guild, title, body, opts, io).value.Some? ==>
      r.client == Send(c, POST, ApiBase + "/submit", PostParams(guild, title, body, opts, io).value.value, None, env).client
    ensures PostParams(guild, title, body, opts, io).Ok? && PostParams(guild, title, body, opts, io).value.Some? ==>
      var a := Send(c, POST, ApiBase + "/submit", PostParams(guild, title, body, opts, io).value.value, None, env);
      (a.result.Err? ==> r.result == Ok(None))
      && (a.result.Ok? && a.result.value.Hash? ==> r.result == Ok(Some(Item(PostKind, a.result.value.fields))))
      && (r.result.Ok? && r.result.value.Some? ==>
            a.result.Ok? && Entities.FromJson(PostKind, a.result.value, env.parse) == Ok(r.result.value.value))
      && (a.result.Ok? && Entities.FromJson(PostKind, a.result.value, env.parse).Err? ==> r.result == Ok(None))
    ensures r.result.Ok? && r.result.value.Some? ==> r.result.value.value.kind == PostKind
  {
    match PostParams(guild, title, body, opts, io)
    case Err(e) => Answer(c, Err(e))
    case Ok(None) => Answer(c, Ok(None))
    case Ok(Some(p)) =>
      var a := Send(c, POST, ApiBase + "/submit", p, None, env);
      if a.result.Err? then Answer(a.client, Ok(None))
      else match Entities.FromJson(PostKind, a.result.value, env.parse)
        case Ok(it) => Answer(a.client, Ok(Some(it)))
        case Err(_) => Answer(a.client, Ok(None))
  }

  /** `guild_available?` (`GuildKind`) and `username_available?` (`UserKind`):
      a name failing its pattern is not available and nothing is sent; a
      failed request raises; otherwise the reply must be a hash holding a
      truthy value under the name. */
  function Availability(c: State, k: Kind, name: Value, env: Env): (r: Answer<bool>)
    requires k == UserKind || k == GuildKind
    ensures Validate(k, name) == Ok(false) ==> r == Answer(c, Ok(false))
    ensures Validate(k, name).Err? ==> r == Answer(c, Err(TypeError))
    ensures Validate(k, name) == Ok(true) ==>
      var a := Send(c, GET, (if k == UserKind then UsernameAvailableRoute else GuildAvailableRoute) + name.s, map[], None, env);
      r.client == a.client
      && (a.result.Err? ==> r.result == Err(a.result.error))
      && (a.result.Ok? ==> r.result == Ok(a.result.value.Hash? && Truthy(Get(a.result.value.fields, name.s))))
  {
    match Validate(k, name)
    case Err(e) => Answer(c, Err(e))
    case Ok(valid) =>
      if !valid then Answer(c, Ok(false))
      else
        var route := if k == UserKind then UsernameAvailableRoute else GuildAvailableRoute;
        var a := Send(c, GET, route + name.s, map[], None, env);
        if a.result.Err? then Answer(a.client, Err(a.result.error))
        else Answer(a.client, Ok(a.result.value.Hash? && Truthy(Get(a.result.value.fields, name.s))))
  }

  /** Unlike the module-level check, the client asks about the name it was
      given: the request names it, and the answer is read under it. */
  lemma AvailabilityAsksForName(c: State, name: string, env: Env, b: bool)
    requires Expired(c.token, env.now) == Ok(false)
    requires Validate(GuildKind, Str(name)) == Ok(true)
    requires env.net(Outgoing(c, GET, GuildAvailableRoute + name, map[], None)) == Reply(200, map[], Some(Hash(map[name := Bool(b)])))
    ensures Availability(c, GuildKind, Str(name), env).result == Ok(b)
    ensures Availability(c, GuildKind, Str(name), env).client.log
         == c.log + [Sent(Outgoing(c, GET, GuildAvailableRoute + name, map[], None))]
  {
  }

  /** The name `each_user_submission` looks up: a user's username, otherwise
      whatever `to_s` gives (nil shows as the empty string). */
  function EnumeratedName(user: Arg): (r: Value)
    ensures user.Obj? && user.item.kind == UserKind ==> r == Read(user.item, Accessor.Username)
    ensures user.Val? ==> r == Str(ToS(user.v))
    ensures user.Obj? && user.item.kind != UserKind ==>
      r == (if Display(user.item).Some? then Display(user.item).value else Str("#<inspect>"))
  {
    match user
    case Obj(it) =>
      if it.kind == UserKind then Read(it, Accessor.Username)
      else (match Display(it) case Some(v) => v case None => Str("#<inspect>"))
    case Val(v) => Str(ToS(v))
  }

  /** The header options each page request passes: its page number. */
  function PageOptions(page: int): Payload
  {
    map["params" := Hash(map["page" := Int(page)])]
  }

  /** One page request of `each_user_submission`: the headers are built from
      the client as it is before `http_get` runs its refresh gate. */
  function PageFetch(url: string, env: Env): (State, int) -> (State, Result<Value>)
  {
    (s: State, page: int) =>
      var a := Send(s, GET, url, map[], Some(Headers(s, PageOptions(page))), env);
      (a.client, a.result)
  }

  /** A page request that triggers a refresh still carries the access token
      from before it, since its headers were built first. */
  lemma PageRequestUsesPriorToken(s: State, url: string, page: int, env: Env)
    requires Expired(s.token, env.now) == Ok(true)
    requires RefreshAccepted(env.net(RefreshRequest(s.token)))
    ensures var out := PageFetch(url, env)(s, page).0;
      |out.log| > 0
      && out.log[|out.log| - 1] == Sent(Request(GET, url, map[], Headers(s, PageOptions(page))))
      && Headers(s, PageOptions(page))["Authorization"] == Authorization(s.token)
      && out.token == Refresh(s.token, env.net).token
  {
  }

  /** `each_user_submission(user, klass, route)` with a block: the username is
      checked first, then pages 1, 2, 3, … of `/user/<name>/<route>` are read
      as the page loop describes. */
  method EachUserSubmission(c: State, user: Arg, k: Kind, route: string, env: Env, fuel: nat)
    returns (r: Result<Paging.Run<State>>)
    ensures MatchValue(LinePattern.Username, EnumeratedName(user)).Err? ==> r == Err(TypeError)
    ensures MatchValue(LinePattern.Username, EnumeratedName(user)) == Ok(false) ==> r == Err(RuqqusError("invalid username"))
    ensures r.Ok? ==> (MatchValue(LinePattern.Username, EnumeratedName(user)) == Ok(true)
      && r.value == Paging.Walk(PageFetch(ApiBase + "/user/" + ToS(EnumeratedName(user)) + "/" + route, env), k, env.parse, c, 1, fuel))
    ensures r.Ok? ==> forall i | 0 <= i < |r.value.pages| :: r.value.pages[i] == 1 + i
    ensures MatchValue(LinePattern.Username, EnumeratedName(user)) == Ok(true) ==> r.Ok?
  {
    var name := EnumeratedName(user);
    var valid := MatchValue(LinePattern.Username, name);
    if valid.Err? {
      return Err(valid.error);
    }
    if !valid.value {
      return Err(RuqqusError("invalid username"));
    }
    var fetch := PageFetch(ApiBase + "/user/" + ToS(name) + "/" + route, env);
    var run := Paging.Enumerate(fetch, k, env.parse, c, fuel);
    Paging.PagesConsecutive(fetch, k, env.parse, c, 1, fuel);
    return Ok(run);
  }
}

=== FILE: entities.dfy ===
/** The API entity types of `lib/ruqqus/types/`: `User`, `Guild`, `Post` and
    `Comment`, each a read-only view of the decoded JSON hash it wraps. */
module Entities {
  import opened RubyText
  import opened Values

  datatype Kind = UserKind | GuildKind | PostKind | CommentKind

  /** An instance of one of the four classes, holding its `@data` hash. */
  datatype Item = Item(kind: Kind, data: Payload)

  predicate IsSubmission(k: Kind)
  {
    k == PostKind || k == CommentKind
  }

  /** `ItemBase.from_json`: a hash is wrapped as it is, a string is parsed
      first; no field is checked. `parse` stands for `JSON.parse`. */
  function FromJson(kind: Kind, json: Value, parse: string -> Option<Value>): (r: Result<Item>)
    ensures json.Hash? ==> r == Ok(Item(kind, json.fields))
    ensures r.Ok? ==> r.value.kind == kind
    ensures r.Ok? ==> json.Hash? || (json.Str? && parse(json.s).Some? && parse(json.s).value == Hash(r.value.data))
    ensures !json.Hash? && !json.Str? ==> r == Err(TypeError)
    ensures json.Str? && parse(json.s).None? ==> r == Err(ParserError)
  {
    match json
    case Hash(f) => Ok(Item(kind, f))
    case Str(s) =>
      (match parse(s)
       case None => Err(ParserError)
       case Some(Hash(f)) => Ok(Item(kind, f))
       case Some(_) => Err(TypeError))
    case _ => Err(TypeError)
  }

  /** Loading the item's own hash, directly or from text that parses to it,
      gives the item back: `from_json` neither drops nor checks fields. */
  lemma FromJsonKeepsData(it: Item, text: string, parse: string -> Option<Value>)
    requires parse(text) == Some(Hash(it.data))
    ensures FromJson(it.kind, Hash(it.data), parse) == Ok(it)
    ensures FromJson(it.kind, Str(text), parse) == Ok(it)
  {
  }

  /** `==`: same class and same `id`; nothing else is compared. */
  predicate Same(a: Item, b: Item)
  {
    a.kind == b.kind && Get(a.data, "id") == Get(b.data, "id")
  }

  /** Equality of items is an equivalence that looks only at class and id. */
  lemma SameIsEquivalence(a: Item, b: Item, c: Item)
    ensures Same(a, a)
    ensures Same(a, b) ==> Same(b, a)
    ensures Same(a, b) && Same(b, c) ==> Same(a, c)
    ensures a.kind != b.kind ==> !Same(a, b)
  {
  }

  /** Two items of one class with the same id are equal whatever else they hold. */
  lemma SameIgnoresOtherFields(a: Item, d: Payload)
    requires "id" in a.data && "id" in d && d["id"] == a.data["id"]
    ensures Same(a, Item(a.kind, d))
  {
  }

  /** The accessors that return one stored field unchanged. */
  datatype Accessor =
    // ItemBase
    | Id | CreatedUtc | Permalink
    // Submission
    | AuthorName | Body | BodyHtml | LastEditUtc | Upvotes | Downvotes | Score
    | Fullname | GuildName | Title
    // Post
    | PostCommentCount | Domain | EmbedUrl | OriginalGuildName | ThumbUrl
    // Comment
    | Level | ParentId | PostId
    // User
    | Username | Bio | BioHtml | BanReason
    // User and Guild
    | BannerUrl | ProfileUrl
    // Guild
    | Description | DescriptionHtml | Color | Name

  /** The hash key each accessor reads; most are the accessor's own name. */
  function Key(a: Accessor): string
  {
    match a
    case Id => "id"
    case CreatedUtc => "created_utc"
    case Permalink => "permalink"
    case AuthorName => "author"
    case Body => "body"
    case BodyHtml => "body_html"
    case LastEditUtc => "edited_utc"
    case Upvotes => "upvotes"
    case Downvotes => "downvotes"
    case Score => "score"
    case Fullname => "fullname"
    case GuildName => "guild_name"
    case Title => "title"
    case PostCommentCount => "comment_count"
    case Domain => "domain"
    case EmbedUrl => "embed_url"
    case OriginalGuildName => "original_guild_name"
    case ThumbUrl => "thumb_url"
    case Level => "level"
    case ParentId => "parent"
    case PostId => "post"
    case Username => "username"
    case Bio => "bio"
    case BioHtml => "bio_html"
    case BanReason => "ban_reason"
    case BannerUrl => "banner_url"
    case ProfileUrl => "profile_url"
    case Description => "description"
    case DescriptionHtml => "description_html"
    case Color => "color"
    case Name => "name"
  }

  /** Which classes define each accessor. */
  predicate Defines(k: Kind, a: Accessor)
  {
    match a
    case Id | CreatedUtc | Permalink => true
    case AuthorName | Body | BodyHtml | LastEditUtc | Upvotes | Downvotes | Score
       | GuildName | Title => IsSubmission(k)
    case Fullname => IsSubmission(k) || k == GuildKind
    case PostCommentCount | Domain | EmbedUrl | OriginalGuildName | ThumbUrl => k == PostKind
    case Level | ParentId | PostId => k == CommentKind
    case Username | Bio | BioHtml | BanReason => k == UserKind
    case BannerUrl | ProfileUrl => k == UserKind || k == GuildKind
    case Description | DescriptionHtml | Color | Name => k == GuildKind
  }

  /** Calling a pass-through accessor: the stored field, nil when absent. */
  function Read(it: Item, a: Accessor): (r: Value)
    requires Defines(it.kind, a)
    ensures Key(a) in it.data ==> r == it.data[Key(a)]
    ensures Key(a) !in it.data ==> r == Nil
  {
    Get(it.data, Key(a))
  }

  /** The renamed accessors read the keys the API uses. */
  lemma RenamedAccessors(it: Item)
    requires IsSubmission(it.kind)
    ensures Read(it, AuthorName) == Get(it.data, "author")
    ensures Read(it, LastEditUtc) == Get(it.data, "edited_utc")
    ensures it.kind == CommentKind ==> Read(it, ParentId) == Get(it.data, "parent")
    ensures it.kind == CommentKind ==> Read(it, PostId) == Get(it.data, "post")
  {
  }

  /** An accessor of an item loaded from a hash returns that hash's field. */
  lemma ReadAfterFromJson(kind: Kind, h: Payload, a: Accessor, parse: string -> Option<Value>)
    requires Defines(kind, a)
    ensures FromJson(kind, Hash(h), parse).Ok?
    ensures Read(FromJson(kind, Hash(h), parse).value, a) == Get(h, Key(a))
  {
  }

  /** `banned?`: the truthiness of `is_banned`, false when absent. */
  function Banned(it: Item): (r: bool)
    ensures r <==> "is_banned" in it.data && it.data["is_banned"] != Nil && it.data["is_banned"] != Bool(false)
  {
    Truthy(Get(it.data, "is_banned"))
  }

  /** `created`: `Time.at(created_utc)`, whole seconds; anything but a number raises. */
  function Created(it: Item): (r: Result<int>)
    ensures r.Ok? <==> Get(it.data, "created_utc").Int?
    ensures r.Ok? ==> r.value == it.data["created_utc"].i
    ensures r.Err? ==> r.error == TypeError
  {
    match Get(it.data, "created_utc")
    case Int(t) => Ok(t)
    case _ => Err(TypeError)
  }

  /** `edited?` of a submission: `edited_utc` is not the integer 0. */
  function Edited(it: Item): (r: bool)
    requires IsSubmission(it.kind)
    ensures r <==> !("edited_utc" in it.data && it.data["edited_utc"] == Int(0))
  {
    Get(it.data, "edited_utc") != Int(0)
  }

  /** An item that never recorded an edit time counts as edited. */
  lemma AbsentEditCountsAsEdited(it: Item)
    requires IsSubmission(it.kind) && "edited_utc" !in it.data
    ensures Edited(it)
    ensures Read(it, LastEditUtc) == Nil
  {
  }

  /** The content flags of a submission. */
  datatype Flag = Nsfw | Nsfl | Archived | Deleted | Offensive

  function FlagKey(f: Flag): string
  {
    match f
    case Nsfw => "is_nsfw"
    case Nsfl => "is_nsfl"
    case Archived => "is_archived"
    case Deleted => "is_deleted"
    case Offensive => "is_offensive"
  }

  /** A flag predicate: the truthiness of its field, always a boolean. */
  function HasFlag(it: Item, f: Flag): (r: bool)
    requires IsSubmission(it.kind)
    ensures r <==> FlagKey(f) in it.data && Truthy(it.data[FlagKey(f)])
  {
    Truthy(Get(it.data, FlagKey(f)))
  }

  /** `to_s` of the four classes: a submission shows its `id` (nil included);
      a user or guild shows its name when truthy and `inspect` otherwise,
      written `None` here. */
  function Display(it: Item): (r: Option<Value>)
    ensures IsSubmission(it.kind) ==> r == Some(Get(it.data, "id"))
    ensures it.kind == UserKind ==>
      (r.Some? <==> Truthy(Get(it.data, "username"))) && (r.Some? ==> r.value == it.data["username"])
    ensures it.kind == GuildKind ==>
      (r.Some? <==> Truthy(Get(it.data, "name"))) && (r.Some? ==> r.value == it.data["name"])
  {
    match it.kind
    case PostKind | CommentKind => Some(Get(it.data, "id"))
    case UserKind => if Truthy(Get(it.data, "username")) then Some(Get(it.data, "username")) else None
    case GuildKind => if Truthy(Get(it.data, "name")) then Some(Get(it.data, "name")) else None
  }

  /** A post's `url`: an empty string, array or hash reads as nil; nil stays
      nil; `empty?` is undefined on numbers and booleans. */
  function Url(it: Item): (r: Result<Value>)
    requires it.kind == PostKind
    ensures var u := Get(it.data, "url");
      (u == Str("") ==> r == Ok(Nil))
      && (u.Str? && u.s != "" ==> r == Ok(u))
      && (u.Nil? ==> r == Ok(Nil))
      && (r.Err? <==> u.Int? || u.Bool?)
    ensures r.Ok? ==> r.value == Nil || r.value == Get(it.data, "url")
  {
    var u := Get(it.data, "url");
    if u.Nil? then Ok(Nil)
    else match IsEmpty(u)
      case Err(e) => Err(e)
      case Ok(empty) => if empty then Ok(Nil) else Ok(u)
  }

  /** The normalised `url` is never empty, and normalising a post whose url is
      already normalised changes nothing. */
  lemma UrlNeverEmpty(it: Item)
    requires it.kind == PostKind && Url(it).Ok?
    ensures IsEmpty(Url(it).value) != Ok(true)
    ensures Url(it.(data := it.data["url" := Url(it).value])) == Url(it)
  {
  }

  /** An object made by `Title.new` or `Badge.new`; `serial` stands for its
      object identity, so that memoisation is observable. */
  datatype Wrapper = Wrapper(serial: nat, data: Value)

  /** `Title.new(data)` / `Badge.new(data)` as the `next` object allocated. */
  function NewWrapper(data: Value, next: nat): (r: Result<Wrapper>)
    ensures r.Ok? <==> Truthy(data)
    ensures r.Ok? ==> r.value == Wrapper(next, data)
    ensures r.Err? ==> r.error == ArgumentError("data cannot be nil")
  {
    if Truthy(data) then Ok(Wrapper(next, data)) else Err(ArgumentError("data cannot be nil"))
  }

  /** `author_title` of a post, given the memo `@author_title` and the next free
      object serial; returns the value (also the new memo) and the next serial.
      A falsy field yields nil without building anything. */
  function AuthorTitle(it: Item, memo: Option<Wrapper>, next: nat): (r: (Option<Wrapper>, nat))
    requires it.kind == PostKind
    ensures memo.Some? ==> r == (memo, next)
    ensures memo.None? ==> (r.0.None? <==> !Truthy(Get(it.data, "author_title")))
    ensures memo.None? && r.0.Some? ==> r.0.value == Wrapper(next, it.data["author_title"]) && r.1 == next + 1
    ensures r.0.None? ==> r.1 == next
  {
    if memo.Some? then (memo, next)
    else
      var f := Get(it.data, "author_title");
      if Truthy(f) then (Some(Wrapper(next, f)), next + 1) else (None, next)
  }

  /** Asking twice gives the same object and allocates nothing more. */
  lemma AuthorTitleMemoised(it: Item, next: nat)
    requires it.kind == PostKind
    ensures var first := AuthorTitle(it, None, next);
      AuthorTitle(it, first.0, first.1) == first
  {
  }

  /** `badges.map { |b| Badge.new(b) }` over an array, serials from `next`. */
  function WrapAll(items: seq<Value>, next: nat): (r: Result<seq<Wrapper>>)
    ensures r.Ok? <==> forall i | 0 <= i < |items| :: Truthy(items[i])
    ensures r.Ok? ==> |r.value| == |items|
    ensures r.Ok? ==> forall i | 0 <= i < |items| :: r.value[i] == Wrapper(next + i, items[i])
    ensures r.Err? ==> r.error == ArgumentError("data cannot be nil")
  {
    if items == [] then Ok([])
    else
      match NewWrapper(items[0], next)
      case Err(e) => Err(e)
      case Ok(w) =>
        match WrapAll(items[1..], next + 1)
        case Err(e) => Err(e)
        case Ok(ws) => Ok([w] + ws)
  }

  /** `badges` of a user, given the memo `@badges`; returns the badges, and the
      next free serial. A missing field raises, as `nil.map` does. */
  function Badges(it: Item, memo: Option<seq<Wrapper>>, next: nat): (r: Result<(seq<Wrapper>, nat)>)
    requires it.kind == UserKind
    ensures memo.Some? ==> r == Ok((memo.value, next))
    ensures memo.None? && Get(it.data, "badges").Arr? ==>
      var items := it.data["badges"].items;
      (r.Ok? <==> forall i | 0 <= i < |items| :: Truthy(items[i]))
      && (r.Ok? ==> (|r.value.0| == |items| && r.value.1 == next + |items|
                     && forall i | 0 <= i < |items| :: r.value.0[i].data == items[i]))
    ensures memo.None? && !Get(it.data, "badges").Arr? ==> r.Err?
  {
    if memo.Some? then Ok((memo.value, next))
    else match Get(it.data, "badges")
      case Arr(items) =>
        (match WrapAll(items, next)
         case Err(e) => Err(e)
         case Ok(ws) => Ok((ws, next + |items|)))
      case Hash(_) => Err(TypeError)
      case _ => Err(NoMethodError)
  }

  /** Once built, the badge list is reused: even an empty list is a truthy memo. */
  lemma BadgesMemoised(it: Item, next: nat)
    requires it.kind == UserKind && Badges(it, None, next).Ok?
    ensures var first := Badges(it, None, next).value;
      Badges(it, Some(first.0), first.1) == Ok(first)
  {
  }

  /** `title` of a user. The wrapped value is read with the method `title`
      itself as the key, so a truthy field recurses until the stack
      overflows; a falsy one gives nil. No title object is ever built. */
  function UserTitle(it: Item): (r: Result<Option<Wrapper>>)
    requires it.kind == UserKind
    ensures r.Ok? <==> !Truthy(Get(it.data, "title"))
    ensures r.Ok? ==> r.value.None?
    ensures r.Err? ==> r.error == StackOverflow && !Rescuable(r.error)
  {
    if Truthy(Get(it.data, "title")) then Err(StackOverflow) else Ok(None)
  }

  /** The four user counters that default to 0. */
  datatype Tally = CommentCount | PostCount | CommentRep | PostRep

  function TallyKey(t: Tally): string
  {
    match t
    case CommentCount => "comment_count"
    case PostCount => "post_count"
    case CommentRep => "comment_rep"
    case PostRep => "post_rep"
  }

  /** `field || 0`. */
  function Counter(it: Item, t: Tally): (r: Value)
    requires it.kind == UserKind
    ensures Truthy(Get(it.data, TallyKey(t))) ==> r == it.data[TallyKey(t)]
    ensures !Truthy(Get(it.data, TallyKey(t))) ==> r == Int(0)
    ensures Truthy(r)
  {
    OrElse(Get(it.data, TallyKey(t)), Int(0))
  }

  /** Ruby `a + b` on decoded JSON values. */
  function Plus(a: Value, b: Value): (r: Result<Value>)
    ensures a.Int? && b.Int? ==> r == Ok(Int(a.i + b.i))
    ensures a.Str? && b.Str? ==> r == Ok(Str(a.s + b.s))
    ensures r.Ok? ==> (a.Int? && b.Int?) || (a.Str? && b.Str?) || (a.Arr? && b.Arr?)
  {
    match (a, b)
    case (Int(x), Int(y)) => Ok(Int(x + y))
    case (Str(x), Str(y)) => Ok(Str(x + y))
    case (Arr(x), Arr(y)) => Ok(Arr(x + y))
    case (Int(_), _) => Err(TypeError)
    case (Str(_), _) => Err(TypeError)
    case (Arr(_), _) => Err(TypeError)
    case _ => Err(NoMethodError)
  }

  /** `total_rep`: `comment_rep + post_rep`, with their defaults. */
  function TotalRep(it: Item): (r: Result<Value>)
    requires it.kind == UserKind
    ensures Counter(it, CommentRep).Int? && Counter(it, PostRep).Int? ==>
      r == Ok(Int(Counter(it, CommentRep).i + Counter(it, PostRep).i))
  {
    Plus(Counter(it, CommentRep), Counter(it, PostRep))
  }

  /** The integer a reputation field contributes: its value, or 0 when it is
      absent or falsy. */
  function RepOf(v: Value): int
  {
    if v.Int? then v.i else 0
  }

  /** With integer or missing reputation fields the total is their sum, the
      missing ones counted as 0. */
  lemma TotalRepIsSum(it: Item)
    requires it.kind == UserKind
    requires Get(it.data, "comment_rep").Int? || !Truthy(Get(it.data, "comment_rep"))
    requires Get(it.data, "post_rep").Int? || !Truthy(Get(it.data, "post_rep"))
    ensures TotalRep(it) == Ok(Int(RepOf(Get(it.data, "comment_rep")) + RepOf(Get(it.data, "post_rep"))))
  {
  }

  /** `field&.to_i || 0`, as the guild counters compute it. */
  function CountOf(v: Value): (r: Result<int>)
    ensures v.Nil? ==> r == Ok(0)
    ensures v.Int? ==> r == Ok(v.i)
    ensures v.Str? ==> r == Ok(ToI(v.s))
    ensures r.Err? <==> !(v.Nil? || v.Int? || v.Str?)
  {
    match v
    case Nil => Ok(0)
    case Int(i) => Ok(i)
    case Str(s) => Ok(ToI(s))
    case _ => Err(NoMethodError)
  }

  /** The two guild counters that default to 0. */
  datatype GuildTally = Members | Guildmasters

  function GuildTallyKey(t: GuildTally): string
  {
    match t
    case Members => "subscriber_count"
    case Guildmasters => "mods_count"
  }

  /** `member_count` (`subscriber_count`) and `guildmaster_count` (`mods_count`). */
  function GuildCount(it: Item, t: GuildTally): (r: Result<int>)
    requires it.kind == GuildKind
    ensures GuildTallyKey(t) !in it.data ==> r == Ok(0)
    ensures Get(it.data, GuildTallyKey(t)).Int? ==> r == Ok(it.data[GuildTallyKey(t)].i)
    ensures Get(it.data, GuildTallyKey(t)).Str? ==> r == Ok(ToI(it.data[GuildTallyKey(t)].s))
  {
    CountOf(Get(it.data, GuildTallyKey(t)))
  }

  /** A count stored as a number or as its decimal text reads the same. */
  lemma CountOfDecimalText(n: int)
    ensures CountOf(Str(ToS(Int(n)))) == CountOf(Int(n)) == Ok(n)
  {
    IntRoundTrip(n);
  }

  /** `to_i` reads a number written with `_` between its digit groups, and
      stops at a doubled underscore. */
  lemma CountOfGroupedText()
    ensures CountOf(Str("1_000")) == Ok(1000)
    ensures CountOf(Str(" -2_5x")) == Ok(-25)
    ensures CountOf(Str("1__000")) == Ok(1)
  {
    ToIGrouped();
    ToISignedGrouped();
    ToIDoubleUnderscore();
  }

  /** The guild flags. `nsfw?` returns `over_18` as stored, so it can be nil or
      any value; `private?` and `restricted?` are booleans. */
  function GuildNsfw(it: Item): (r: Value)
    requires it.kind == GuildKind
    ensures "over_18" !in it.data ==> r == Nil
    ensures "over_18" in it.data ==> r == it.data["over_18"]
  {
    Get(it.data, "over_18")
  }

  /** The two boolean guild settings. */
  datatype Setting = IsPrivate | IsRestricted

  function SettingKey(x: Setting): string
  {
    match x
    case IsPrivate => "is_private"
    case IsRestricted => "is_restricted"
  }

  /** `private?` and `restricted?`: `!!field`. */
  function GuildHas(it: Item, x: Setting): (r: bool)
    requires it.kind == GuildKind
    ensures r <==> SettingKey(x) in it.data && Truthy(it.data[SettingKey(x)])
  {
    Truthy(Get(it.data, SettingKey(x)))
  }

  /** `parent_comment?`: `level > 1`. Comparing a string with an integer
      raises ArgumentError, a hash raises TypeError, and the other values
      have no `>`. */
  function ParentComment(it: Item): (r: Result<bool>)
    requires it.kind == CommentKind
    ensures Read(it, Level).Int? ==> r == Ok(Read(it, Level).i > 1)
    ensures r.Ok? <==> Read(it, Level).Int?
    ensures Read(it, Level).Str? ==> r == Err(ArgumentError("comparison of String with 1 failed"))
  {
    match Read(it, Level)
    case Int(l) => Ok(l > 1)
    case Str(_) => Err(ArgumentError("comparison of String with 1 failed"))
    case Hash(_) => Err(TypeError)
    case _ => Err(NoMethodError)
  }

  /** `parent_post?`: `level == 1`, which never raises. */
  function ParentPost(it: Item): (r: bool)
    requires it.kind == CommentKind
    ensures r <==> "level" in it.data && it.data["level"] == Int(1)
  {
    Read(it, Level) == Int(1)
  }

  /** A comment at level 1 or deeper has exactly one kind of parent; below
      level 1 it has neither. */
  lemma ParentKindByLevel(it: Item, l: int)
    requires it.kind == CommentKind && Get(it.data, "level") == Int(l)
    ensures l >= 1 ==> (ParentPost(it) <==> ParentComment(it) == Ok(false))
    ensures l < 1 ==> !ParentPost(it) && ParentComment(it) == Ok(false)
  {
  }
}

=== FILE: http.dfy ===
/** The HTTP layer the client sits on, as an abstract function from request to
    response, plus the fixed endpoints and headers of the gem. */
module Http {
  import opened Values

  datatype Verb = GET | POST

  /** One request: verb, URL, form parameters and headers. */
  datatype Request = Request(verb: Verb, url: string, params: Payload, headers: Payload)

  /** What the transport hands back: an exception from the transport itself, or
      a reply with its status, cookies and body (None when the body is not JSON). */
  datatype Response =
    | Failed
    | Reply(code: int, cookies: map<string, string>, body: Option<Value>)

  /** The server, as seen by the client. */
  type Network = Request -> Response

  const Version: string := "1.1.5"
  const UserAgent: string := "ruqqus-ruby/" + Version + " (efreed09@gmail.com)"

  /** Headers every request carries before authorization is added. */
  const DefaultHeaders: Payload := map[
    "User-Agent" := Str(UserAgent),
    "Accept" := Str("application/json"),
    "Content-Type" := Str("application/json")
  ]

  const Home: string := "https://ruqqus.com"
  const ApiBase: string := "https://ruqqus.com/api/v1"
  const UserRoute: string := ApiBase + "/user/"
  const GuildRoute: string := ApiBase + "/guild/"
  const PostRoute: string := ApiBase + "/post/"
  const CommentRoute: string := ApiBase + "/comment/"
  const GuildAvailableRoute: string := "https://ruqqus.com/api/board_available/"
  const UsernameAvailableRoute: string := "https://ruqqus.com/api/is_available/"
  const GrantUrl: string := "https://ruqqus.com/oauth/grant"
  const AuthorizeEndpoint: string := "https://ruqqus.com/oauth/authorize"

  /** The cookie name the client reads the session from, spelled as the gem spells it. */
  const SessionCookie: string := "sesssion_ruqqus"
}

=== FILE: legacy.dfy ===
/** The older entity classes of `lib/ruqqus/{submission,post,comment}.rb`.
    They share the flags and `edited?` of the newer types, but add lazily
    fetched relations, keep `url` raw, show a post by its title, and define
    `full_name`. The module-level fetchers (`Ruqqus.user` and friends) are
    not part of this model: they are an abstract `Fetcher`. */
module Legacy {
  import opened Values
  import opened Entities

  /** The module-level fetchers the relations call. */
  datatype Target = FetchUser | FetchGuild | FetchPost | FetchComment

  /** One call of a fetcher with its argument. */
  datatype Call = Call(target: Target, arg: Value)

  /** What a fetcher returns for a call: an item, nil (`None`), or an exception. */
  type Fetcher = Call -> Result<Option<Item>>

  /** The memo instance variables of an older item; nil is `None`. */
  datatype Memos = Memos(author: Option<Item>, guild: Option<Item>, originalGuild: Option<Item>, parent: Option<Item>)

  const NoMemos := Memos(None, None, None, None)

  /** The value an accessor produced, the memo slot afterwards, and the
      fetcher calls it made. */
  datatype Step = Step(value: Result<Option<Item>>, slot: Option<Item>, calls: seq<Call>)

  /** `@slot ||= key ? fetch(key) : nil`: a set slot is returned as it is; a
      falsy key gives nil without a call; otherwise one call, whose non-nil
      result is kept. */
  function Lazy(slot: Option<Item>, key: Value, target: Target, fetch: Fetcher): (r: Step)
    ensures slot.Some? ==> r == Step(Ok(slot), slot, [])
    ensures slot.None? && !Truthy(key) ==> r == Step(Ok(None), None, [])
    ensures slot.None? && Truthy(key) ==>
      r.calls == [Call(target, key)] && r.value == fetch(Call(target, key))
      && (r.slot.Some? <==> r.value.Ok? && r.value.value.Some?)
      && (r.slot.Some? ==> r.value == Ok(r.slot))
  {
    if slot.Some? then Step(Ok(slot), slot, [])
    else if !Truthy(key) then Step(Ok(None), None, [])
    else
      var got := fetch(Call(target, key));
      Step(got, if got.Ok? then got.value else None, [Call(target, key)])
  }

  /** Reading a lazy relation a second time after it fetched an item makes no
      further call and returns the same item. */
  lemma LazyMemoised(slot: Option<Item>, key: Value, target: Target, fetch: Fetcher)
    requires Lazy(slot, key, target, fetch).slot.Some?
    ensures var first := Lazy(slot, key, target, fetch);
      Lazy(first.slot, key, target, fetch) == Step(first.value, first.slot, [])
  {
  }

  /** A fetch that answered nil is not remembered: the next read calls again. */
  lemma LazyRetriesNil(key: Value, target: Target, fetch: Fetcher)
    requires Truthy(key) && fetch(Call(target, key)) == Ok(None)
    ensures Lazy(None, key, target, fetch).slot.None?
    ensures Lazy(Lazy(None, key, target, fetch).slot, key, target, fetch).calls == [Call(target, key)]
  {
  }

  /** `author` of a submission: the user named by `author_name`. */
  function Author(it: Item, m: Memos, fetch: Fetcher): (r: Step)
    requires IsSubmission(it.kind)
    ensures m.author.None? && !Truthy(Read(it, AuthorName)) ==> r.calls == [] && r.value == Ok(None)
    ensures m.author.None? && Truthy(Read(it, AuthorName)) ==> r.calls == [Call(FetchUser, Read(it, AuthorName))]
    ensures m.author.Some? ==> r.calls == [] && r.value == Ok(m.author)
  {
    Lazy(m.author, Read(it, AuthorName), FetchUser, fetch)
  }

  /** `guild` of a submission: the guild named by `guild_name`. */
  function GuildOf(it: Item, m: Memos, fetch: Fetcher): (r: Step)
    requires IsSubmission(it.kind)
    ensures m.guild.None? && !Truthy(Read(it, GuildName)) ==> r.calls == [] && r.value == Ok(None)
    ensures m.guild.None? && Truthy(Read(it, GuildName)) ==> r.calls == [Call(FetchGuild, Read(it, GuildName))]
    ensures m.guild.Some? ==> r.calls == [] && r.value == Ok(m.guild)
  {
    Lazy(m.guild, Read(it, GuildName), FetchGuild, fetch)
  }

  /** `original_guild` of a post: the guild named by `original_guild_name`. */
  function OriginalGuild(it: Item, m: Memos, fetch: Fetcher): (r: Step)
    requires it.kind == PostKind
    ensures m.originalGuild.None? && !Truthy(Read(it, OriginalGuildName)) ==> r.calls == [] && r.value == Ok(None)
    ensures m.originalGuild.None? && Truthy(Read(it, OriginalGuildName)) ==>
      r.calls == [Call(FetchGuild, Read(it, OriginalGuildName))]
    ensures m.originalGuild.Some? ==> r.calls == [] && r.value == Ok(m.originalGuild)
  {
    Lazy(m.originalGuild, Read(it, OriginalGuildName), FetchGuild, fetch)
  }

  /** `parent` of a comment: a set memo is returned; otherwise `level > 1`
      fetches `parent_id` as a comment and anything else as a post. The id is
      not checked for nil. A level that cannot be compared with 1 raises the
      error `parent_comment?` would. */
  function Parent(it: Item, m: Memos, fetch: Fetcher): (r: Step)
    requires it.kind == CommentKind
    ensures m.parent.Some? ==> r == Step(Ok(m.parent), m.parent, [])
    ensures m.parent.None? && ParentComment(it).Ok? ==>
      r.calls == [Call(if ParentComment(it).value then FetchComment else FetchPost, Read(it, ParentId))]
      && r.value == fetch(r.calls[0])
    ensures m.parent.None? && ParentComment(it).Err? ==> r == Step(Err(ParentComment(it).error), None, [])
    ensures r.slot.Some? ==> r.value == Ok(r.slot)
  {
    if m.parent.Some? then Step(Ok(m.parent), m.parent, [])
    else match ParentComment(it)
      case Err(e) => Step(Err(e), None, [])
      case Ok(deep) =>
        var c := Call(if deep then FetchComment else FetchPost, Read(it, ParentId));
        var got := fetch(c);
        Step(got, if got.Ok? then got.value else None, [c])
  }

  /** A top-level comment's parent is fetched as a post, a deeper one's as a
      comment; once found it is not fetched again. */
  lemma ParentByLevel(it: Item, fetch: Fetcher, l: int)
    requires it.kind == CommentKind && Get(it.data, "level") == Int(l)
    ensures Parent(it, NoMemos, fetch).calls[0].target == (if l > 1 then FetchComment else FetchPost)
    ensures Parent(it, NoMemos, fetch).slot.Some? ==>
      Parent(it, NoMemos.(parent := Parent(it, NoMemos, fetch).slot), fetch).calls == []
  {
  }

  /** `post` of a comment: fetched on every call, never remembered. */
  function PostOf(it: Item, fetch: Fetcher): (r: Step)
    requires it.kind == CommentKind
    ensures r.calls == [Call(FetchPost, Read(it, PostId))]
    ensures r.value == fetch(Call(FetchPost, Read(it, PostId)))
    ensures r.slot.None?
  {
    Step(fetch(Call(FetchPost, Read(it, PostId))), None, [Call(FetchPost, Read(it, PostId))])
  }

  /** Unlike `post`, which fetches on every read, a top-level comment's
      `parent` is fetched as a post once and then read from its memo. */
  lemma ParentFetchedOnce(it: Item, fetch: Fetcher)
    requires it.kind == CommentKind
    requires fetch(Call(FetchPost, Read(it, ParentId))).Ok? && fetch(Call(FetchPost, Read(it, ParentId))).value.Some?
    ensures Get(it.data, "level") == Int(1) ==>
      var first := Parent(it, NoMemos, fetch);
      |first.calls + Parent(it, NoMemos.(parent := first.slot), fetch).calls| == 1
  {
  }

  /** `full_name`, defined only here: the `fullname` field. */
  function FullName(it: Item): (r: Value)
    requires IsSubmission(it.kind)
    ensures "fullname" in it.data ==> r == it.data["fullname"]
    ensures "fullname" !in it.data ==> r == Nil
  {
    Get(it.data, "fullname")
  }

  /** The older `full_name` and the newer `fullname` read the same field. */
  lemma FullNameAgrees(it: Item)
    requires IsSubmission(it.kind)
    ensures FullName(it) == Read(it, Fullname)
  {
  }

  /** The older `url`: the stored field as it is, empty string included. */
  function RawUrl(it: Item): (r: Value)
    requires it.kind == PostKind
    ensures "url" in it.data ==> r == it.data["url"]
    ensures "url" !in it.data ==> r == Nil
  {
    Get(it.data, "url")
  }

  /** The two `url` variants agree except on an empty stored value, which
      only the newer one turns into nil. */
  lemma UrlVariants(it: Item)
    requires it.kind == PostKind && Url(it).Ok?
    ensures Url(it).value != RawUrl(it) <==> IsEmpty(RawUrl(it)) == Ok(true)
    ensures RawUrl(it) == Str("") ==> Url(it).value == Nil
  {
  }

  /** The older post `to_s`: the title when truthy, otherwise `inspect`
      (`None`); the newer post shows its id instead. */
  function PostDisplay(it: Item): (r: Option<Value>)
    requires it.kind == PostKind
    ensures r.Some? <==> Truthy(Get(it.data, "title"))
    ensures r.Some? ==> r.value == it.data["title"]
  {
    if Truthy(Get(it.data, "title")) then Some(Get(it.data, "title")) else None
  }

  /** A post with a title is shown by title in the older class and by id in
      the newer one. */
  lemma DisplayVariants(it: Item)
    requires it.kind == PostKind && Truthy(Get(it.data, "title"))
    ensures PostDisplay(it) == Some(Read(it, Title))
    ensures Display(it) == Some(Read(it, Id))
  {
  }

  /** `Post.from_url` and `Comment.from_url` are empty: nil for every URL. */
  function FromUrl(kind: Kind, url: Value): (r: Option<Item>)
    requires IsSubmission(kind)
    ensures r.None?
  {
    None
  }
}

=== FILE: paging.dfy ===
/** The page-by-page loop of `each_user_submission`: request page 1, 2, 3, …,
    hand every item of a page to the block, and stop after a page without
    `data` or with fewer than 25 items. The requests themselves are an
    abstract `fetch` that threads the caller's state (the client, whose token
    and session a request may change). */
module Paging {
  import opened Values
  import opened Entities

  /** The size of a full page. */
  const PageSize: nat := 25

  /** What `json[:data]` gives the loop: nothing (stop), items to convert, or
      an exception raised while reading it. */
  datatype PageView = NoData | Items(items: seq<Value>) | Broken(error: Error)

  /** Reading `json[:data]` and iterating it. A hash `data` is iterated as
      key-value pairs, which `from_json` rejects; an empty one yields nothing. */
  function View(json: Value): (r: PageView)
    ensures r.NoData? <==> json.Hash? && !Truthy(Get(json.fields, "data"))
    ensures json.Hash? && Get(json.fields, "data").Arr? ==> r == Items(json.fields["data"].items)
    ensures r.Items? ==> json.Hash? && (Get(json.fields, "data").Arr? || Get(json.fields, "data") == Hash(map[]))
  {
    match json
    case Hash(f) =>
      var d := Get(f, "data");
      if !Truthy(d) then NoData
      else
        (match d
         case Arr(xs) => Items(xs)
         case Hash(h) => if |h| == 0 then Items([]) else Broken(TypeError)
         case _ => Broken(NoMethodError))
    case Nil => Broken(NoMethodError)
    case Bool(_) => Broken(NoMethodError)
    case _ => Broken(TypeError)
  }

  /** `data.each { |hash| yield klass.from_json(hash) }`: the items converted
      before the first failure, and that failure if there is one. */
  function ConvertAll(kind: Kind, xs: seq<Value>, parse: string -> Option<Value>): (r: (seq<Item>, Option<Error>))
    ensures |r.0| <= |xs|
    ensures forall i | 0 <= i < |r.0| :: FromJson(kind, xs[i], parse) == Ok(r.0[i])
    ensures r.1.None? ==> |r.0| == |xs|
    ensures r.1.Some? ==> |r.0| < |xs| && FromJson(kind, xs[|r.0|], parse) == Err(r.1.value)
  {
    if xs == [] then ([], None)
    else
      match FromJson(kind, xs[0], parse)
      case Err(e) => ([], Some(e))
      case Ok(it) =>
        var rest := ConvertAll(kind, xs[1..], parse);
        ([it] + rest.0, rest.1)
  }

  /** Why an enumeration ended. */
  datatype Stop = LastPage | Failed(error: Error) | OutOfFuel

  /** The end state, the items yielded in order, the pages requested in order,
      and why it stopped. */
  datatype Run<S> = Run(state: S, yielded: seq<Item>, pages: seq<int>, stop: Stop)

  function Prepend<S>(ys: seq<Item>, ps: seq<int>, r: Run<S>): Run<S>
  {
    Run(r.state, ys + r.yielded, ps + r.pages, r.stop)
  }

  /** The outcome of one request: the run ends here, or it goes on from a new
      state after yielding some items. */
  datatype Next<S> = Done(run: Run<S>) | More(state: S, items: seq<Item>)

  /** One turn of the loop: request `page`, read its data, yield its items,
      and decide whether to go on. A page that ends the run is its only page. */
  function PageStep<S>(fetch: (S, int) -> (S, Result<Value>), kind: Kind, parse: string -> Option<Value>,
                       s: S, page: int): (r: Next<S>)
    ensures r.Done? ==> r.run.pages == [page] && r.run.state == fetch(s, page).0
    ensures r.Done? && r.run.stop.LastPage? ==> |r.run.yielded| < PageSize
    ensures r.More? ==> |r.items| >= PageSize && r.state == fetch(s, page).0
    ensures r.More? || !r.run.stop.OutOfFuel?
  {
    var got := fetch(s, page);
    match got.1
    case Err(e) => Done(Run(got.0, [], [page], Failed(e)))
    case Ok(json) =>
      match View(json)
      case NoData => Done(Run(got.0, [], [page], LastPage))
      case Broken(e) => Done(Run(got.0, [], [page], Failed(e)))
      case Items(xs) =>
        var conv := ConvertAll(kind, xs, parse);
        if conv.1.Some? then Done(Run(got.0, conv.0, [page], Failed(conv.1.value)))
        else if |xs| < PageSize then Done(Run(got.0, conv.0, [page], LastPage))
        else More(got.0, conv.0)
  }

  /** Reference definition of the loop, from page `page` on, with at most
      `fuel` requests. */
  function Walk<S>(fetch: (S, int) -> (S, Result<Value>), kind: Kind, parse: string -> Option<Value>,
                   s: S, page: int, fuel: nat): Run<S>
    decreases fuel
  {
    if fuel == 0 then Run(s, [], [], OutOfFuel)
    else
      match PageStep(fetch, kind, parse, s, page)
      case Done(r) => r
      case More(s', ys) => Prepend(ys, [page], Walk(fetch, kind, parse, s', page + 1, fuel - 1))
  }

  lemma PrependTwice<S>(ys: seq<Item>, ps: seq<int>, ys': seq<Item>, ps': seq<int>, r: Run<S>)
    ensures Prepend(ys, ps, Prepend(ys', ps', r)) == Prepend(ys + ys', ps + ps', r)
  {
  }

  /** One full page moves its items and its number from the rest of the walk
      to what the loop has already collected. */
  lemma WalkAdvances<S>(fetch: (S, int) -> (S, Result<Value>), kind: Kind, parse: string -> Option<Value>,
                        ys: seq<Item>, ps: seq<int>, s: S, page: int, left: nat)
    requires left > 0 && PageStep(fetch, kind, parse, s, page).More?
    ensures var step := PageStep(fetch, kind, parse, s, page);
      Prepend(ys, ps, Walk(fetch, kind, parse, s, page, left))
      == Prepend(ys + step.items, ps + [page], Walk(fetch, kind, parse, step.state, page + 1, left - 1))
  {
    var step := PageStep(fetch, kind, parse, s, page);
    PrependTwice(ys, ps, step.items, [page], Walk(fetch, kind, parse, step.state, page + 1, left - 1));
  }

  /** A page that ends the run is the rest of the walk. */
  lemma WalkEnds<S>(fetch: (S, int) -> (S, Result<Value>), kind: Kind, parse: string -> Option<Value>,
                    s: S, page: int, left: nat)
    requires left > 0 && PageStep(fetch, kind, parse, s, page).Done?
    ensures Walk(fetch, kind, parse, s, page, left) == PageStep(fetch, kind, parse, s, page).run
  {
  }

  /** The loop itself, starting at page 1. */
  method Enumerate<S>(fetch: (S, int) -> (S, Result<Value>), kind: Kind, parse: string -> Option<Value>,
                      s0: S, fuel: nat) returns (r: Run<S>)
    ensures r == Walk(fetch, kind, parse, s0, 1, fuel)
  {
    var s := s0;
    var page := 1;
    var left := fuel;
    var yielded: seq<Item> := [];
    var pages: seq<int> := [];
    while true
      invariant Walk(fetch, kind, parse, s0, 1, fuel) == Prepend(yielded, pages, Walk(fetch, kind, parse, s, page, left))
      decreases left
    {
      if left == 0 {
        return Run(s, yielded, pages, OutOfFuel);
      }
      var step := PageStep(fetch, kind, parse, s, page);
      if step.Done? {
        WalkEnds(fetch, kind, parse, s, page, left);
        return Prepend(yielded, pages, step.run);
      }
      WalkAdvances(fetch, kind, parse, yielded, pages, s, page, left);
      yielded := yielded + step.items;
      pages := pages + [page];
      s := step.state;
      page := page + 1;
      left := left - 1;
    }
  }

  /** The pages requested are consecutive, from the first one on. */
  lemma {:induction false} PagesConsecutive<S>(fetch: (S, int) -> (S, Result<Value>), kind: Kind,
                                               parse: string -> Option<Value>, s: S, page: int, fuel: nat)
    ensures var r := Walk(fetch, kind, parse, s, page, fuel);
      |r.pages| <= fuel && (fuel > 0 ==> |r.pages| >= 1)
      && forall i | 0 <= i < |r.pages| :: r.pages[i] == page + i
    decreases fuel
  {
    if fuel > 0 {
      var step := PageStep(fetch, kind, parse, s, page);
      if step.More? {
        PagesConsecutive(fetch, kind, parse, step.state, page + 1, fuel - 1);
      }
    }
  }

  /** Every page but the last was full: the loop goes on only after a page of
      at least 25 items, so a run that ended normally yielded at least 25 items
      per earlier page, and a run cut short by the fuel at least 25 per page. */
  lemma {:induction false} FullPagesBeforeLast<S>(fetch: (S, int) -> (S, Result<Value>), kind: Kind,
                                                  parse: string -> Option<Value>, s: S, page: int, fuel: nat)
    ensures var r := Walk(fetch, kind, parse, s, page, fuel);
      (r.stop.LastPage? ==> |r.yielded| >= PageSize * (|r.pages| - 1))
      && (r.stop.OutOfFuel? ==> |r.yielded| >= PageSize * |r.pages| && |r.pages| == fuel)
    decreases fuel
  {
    if fuel > 0 {
      var step := PageStep(fetch, kind, parse, s, page);
      if step.More? {
        FullPagesBeforeLast(fetch, kind, parse, step.state, page + 1, fuel - 1);
        PagesConsecutive(fetch, kind, parse, step.state, page + 1, fuel - 1);
      }
    }
  }

  /** A short page, or one without data, is the last page requested, and its
      items are still yielded. */
  lemma ShortPageStops<S>(fetch: (S, int) -> (S, Result<Value>), kind: Kind,
                          parse: string -> Option<Value>, s: S, page: int, fuel: nat, xs: seq<Value>)
    requires fuel > 0
    requires fetch(s, page).1 == Ok(Hash(map["data" := Arr(xs)]))
    requires |xs| < PageSize && ConvertAll(kind, xs, parse).1.None?
    ensures Walk(fetch, kind, parse, s, page, fuel)
         == Run(fetch(s, page).0, ConvertAll(kind, xs, parse).0, [page], LastPage)
  {
  }

  /** A failed request ends the enumeration with that error, after what the
      earlier pages yielded. */
  lemma FailureStops<S>(fetch: (S, int) -> (S, Result<Value>), kind: Kind,
                        parse: string -> Option<Value>, s: S, page: int, fuel: nat, e: Error)
    requires fuel > 0 && fetch(s, page).1 == Err(e)
    ensures Walk(fetch, kind, parse, s, page, fuel) == Run(fetch(s, page).0, [], [page], Failed(e))
  {
  }
}

=== FILE: patterns.dfy ===
/** The validation patterns of the gem (`VALID_USERNAME`, `VALID_PASSWORD`,
    `VALID_GUILD`, `VALID_POST`), written out by hand.

    In Ruby `^` and `$` anchor to the start and end of a LINE, and `.` does not
    match a newline, so an anchored pattern accepts a string as soon as one of
    its newline-separated lines fits the pattern body. */
module Patterns {
  import opened RubyText
  import opened Values

  predicate IsAlnum(c: char)
  {
    ('a' <= c <= 'z') || ('A' <= c <= 'Z') || ('0' <= c <= '9')
  }

  /** The character class `[a-zA-Z0-9_]`. */
  predicate IsWord(c: char)
  {
    IsAlnum(c) || c == '_'
  }

  /** The three line-anchored patterns. */
  datatype LinePattern = Username | Password | GuildName

  /** The pattern body between `^` and `$`, applied to one whole line. */
  predicate LineFits(p: LinePattern, line: string)
  {
    match p
    case Username =>
      5 <= |line| <= 25 && forall i | 0 <= i < |line| :: IsWord(line[i])
    case Password =>
      8 <= |line| <= 100 && forall i | 0 <= i < |line| :: line[i] != '\n'
    case GuildName =>
      1 <= |line| && IsAlnum(line[0]) && 2 <= |line| - 1 <= 24
      && forall i | 1 <= i < |line| :: IsWord(line[i])
  }

  /** `pattern.match?(s)` for a string: some line of `s` fits. */
  predicate Matches(p: LinePattern, s: string)
  {
    exists line | line in Fields(s, '\n') :: LineFits(p, line)
  }

  /** Reference reading of the regular expression: a match runs from a line
      start `i` to a line end `j`, and the text in between fits the body. */
  ghost predicate RegexMatch(p: LinePattern, s: string)
  {
    exists i, j | 0 <= i <= j <= |s| :: LineStart(s, i) && LineEnd(s, j) && LineFits(p, s[i..j])
  }

  /** `pattern.match?(v)` for whatever value is passed: nil never matches,
      a non-string raises. */
  function MatchValue(p: LinePattern, v: Value): (r: Result<bool>)
    ensures v.Str? ==> r == Ok(Matches(p, v.s))
    ensures v.Nil? ==> r == Ok(false)
    ensures r.Err? <==> !(v.Str? || v.Nil?)
  {
    match v
    case Str(s) => Ok(Matches(p, s))
    case Nil => Ok(false)
    case _ => Err(TypeError)
  }

  /** None of the pattern bodies can match across a newline. */
  lemma FitsHasNoNewline(p: LinePattern, line: string)
    requires LineFits(p, line)
    ensures forall m | 0 <= m < |line| :: line[m] != '\n'
  {
  }

  /** Checking the lines one by one is the line-anchored regular expression. */
  lemma MatchesIffRegex(p: LinePattern, s: string)
    ensures Matches(p, s) <==> RegexMatch(p, s)
  {
    if Matches(p, s) {
      var line :| line in Fields(s, '\n') && LineFits(p, line);
      FieldsArePieces(s, '\n', line);
      var i, j :| IsPiece(s, '\n', i, j) && s[i..j] == line;
      assert LineStart(s, i) && LineEnd(s, j);
    }
    if RegexMatch(p, s) {
      var i, j :| 0 <= i <= j <= |s| && LineStart(s, i) && LineEnd(s, j) && LineFits(p, s[i..j]);
      FitsHasNoNewline(p, s[i..j]);
      forall m | i <= m < j
        ensures s[m] != '\n'
      {
        assert s[m] == s[i..j][m - i];
      }
      assert IsPiece(s, '\n', i, j);
      FieldsArePieces(s, '\n', s[i..j]);
    }
  }

  /** A single-line string matches exactly when it fits the pattern body. */
  lemma SingleLineMatches(p: LinePattern, s: string)
    requires forall m | 0 <= m < |s| :: s[m] != '\n'
    ensures Matches(p, s) <==> LineFits(p, s)
  {
  }

  /** A name without line breaks passes the username check exactly when it
      is 5 to 25 characters from `[A-Za-z0-9_]`. */
  lemma UsernameLine(name: string)
    requires forall m | 0 <= m < |name| :: name[m] != '\n'
    ensures Matches(Username, name) <==>
      5 <= |name| <= 25 && forall i | 0 <= i < |name| :: IsWord(name[i])
  {
    SingleLineMatches(Username, name);
  }

  /** A guild name is 3 to 25 word characters that do not start with `_`. */
  lemma GuildLine(line: string)
    ensures LineFits(GuildName, line) <==>
      3 <= |line| <= 25 && line[0] != '_' && forall i | 0 <= i < |line| :: IsWord(line[i])
  {
  }

  /** The line anchors make a multi-line string pass as soon as its last line
      fits, whatever precedes it, although the string as a whole never fits. */
  lemma LastLineSuffices(p: LinePattern, a: string, b: string)
    requires LineFits(p, b)
    ensures Matches(p, a + ['\n'] + b)
    ensures !LineFits(p, a + ['\n'] + b)
  {
    var s := a + ['\n'] + b;
    var i := |a| + 1;
    FitsHasNoNewline(p, b);
    assert s[i..] == b;
    forall m | i <= m < |s|
      ensures s[m] != '\n'
    {
      assert s[m] == b[m - i];
    }
    assert IsPiece(s, '\n', i, |s|);
    FieldsArePieces(s, '\n', b);
    assert s[|a|] == '\n';
    if LineFits(p, s) {
      FitsHasNoNewline(p, s);
    }
  }

  /** `VALID_POST` has no anchors: it matches when some character is a letter or digit. */
  predicate PostIdMatches(s: string)
  {
    exists i | 0 <= i < |s| :: IsAlnum(s[i])
  }

  predicate AllAlnum(t: string)
  {
    forall m | 0 <= m < |t| :: IsAlnum(t[m])
  }

  /** Reference reading of `/[A-Za-z0-9]+/`: some non-empty run of letters and digits. */
  ghost predicate PostIdRegex(s: string)
  {
    exists i, j | 0 <= i < j <= |s| :: AllAlnum(s[i..j])
  }

  lemma PostIdIffRegex(s: string)
    ensures PostIdMatches(s) <==> PostIdRegex(s)
  {
    if PostIdMatches(s) {
      var i :| 0 <= i < |s| && IsAlnum(s[i]);
      assert AllAlnum(s[i..i + 1]);
    }
    if PostIdRegex(s) {
      var i, j :| 0 <= i < j <= |s| && AllAlnum(s[i..j]);
      assert IsAlnum(s[i..j][0]);
    }
  }

  /** `VALID_POST.match?(v)` for whatever value is passed. */
  function MatchPostId(v: Value): (r: Result<bool>)
    ensures v.Str? ==> r == Ok(PostIdMatches(v.s))
    ensures v.Nil? ==> r == Ok(false)
    ensures r.Err? <==> !(v.Str? || v.Nil?)
  {
    match v
    case Str(s) => Ok(PostIdMatches(s))
    case Nil => Ok(false)
    case _ => Err(TypeError)
  }
}

=== FILE: ruqqus.dfy ===
/** The module-level helpers of the gem: the OAuth authorization URL, the query
    parsing done when the redirect arrives, and the name-availability check. */
module Ruqqus {
  import opened RubyText
  import opened Values
  import opened Patterns
  import opened Http

  /** `Client::SCOPES`, the permissions an application may ask for. */
  const Scopes: seq<string> := ["identity", "create", "read", "update", "delete", "vote", "guildmaster"]

  /** Scopes that are useless without `identity`. */
  predicate NeedsIdentity(s: string)
  {
    s == "create" || s == "update" || s == "guildmaster"
  }

  /** The scope list sent to the server: `identity` is appended, once and at the
      end, when a scope needing it is asked for without it. */
  function GrantedScopes(scopes: seq<string>): (r: seq<string>)
    ensures scopes <= r && |r| <= |scopes| + 1
    ensures |r| == |scopes| + 1 <==>
      (exists i | 0 <= i < |scopes| :: NeedsIdentity(scopes[i])) && "identity" !in scopes
    ensures |r| == |scopes| + 1 ==> r[|scopes|] == "identity"
    ensures (exists i | 0 <= i < |scopes| :: NeedsIdentity(scopes[i])) ==> "identity" in r
    ensures multiset(r)["identity"] <= multiset(scopes)["identity"] + 1
  {
    if (exists i | 0 <= i < |scopes| :: NeedsIdentity(scopes[i])) && "identity" !in scopes
    then scopes + ["identity"]
    else scopes
  }

  /** `Ruqqus.authorize_url`. `validUri` stands for `URI.regexp` and
      `randomState` for the Base64 UUID used when no CSRF token is given. */
  function AuthorizeUrl(clientId: Option<string>, redirect: string, scopes: Option<seq<string>>,
                        permanent: bool, csrf: Option<string>,
                        validUri: string -> bool, randomState: string): (r: Result<string>)
    ensures !validUri(redirect) ==> r == Err(ArgumentError("invalid redirect URI"))
    ensures validUri(redirect) && (scopes.None? || scopes.value == []) ==>
      r == Err(ArgumentError("scopes cannot be empty"))
    ensures (validUri(redirect) && scopes.Some? && scopes.value != []
             && exists i | 0 <= i < |scopes.value| :: scopes.value[i] !in Scopes) ==>
      r == Err(ArgumentError("invalid scopes specified"))
    ensures r.Ok? <==> (validUri(redirect) && scopes.Some? && scopes.value != []
                        && (forall i | 0 <= i < |scopes.value| :: scopes.value[i] in Scopes) && clientId.Some?)
    ensures (r.Err? && validUri(redirect) && scopes.Some? && scopes.value != []
             && forall i | 0 <= i < |scopes.value| :: scopes.value[i] in Scopes) ==>
      r == Err(ArgumentError("client ID cannot be nil"))
    ensures r.Ok? ==>
      r.value == AuthorizeEndpoint + "?" + Join(AuthorizeSegments(clientId.value, redirect,
        Join(GrantedScopes(scopes.value), ','), if csrf.Some? then csrf.value else randomState,
        if permanent then "true" else "false"), '&')
  {
    if !validUri(redirect) then Err(ArgumentError("invalid redirect URI"))
    else if scopes.None? || scopes.value == [] then Err(ArgumentError("scopes cannot be empty"))
    else if exists i | 0 <= i < |scopes.value| :: scopes.value[i] !in Scopes then
      Err(ArgumentError("invalid scopes specified"))
    else
      var granted := GrantedScopes(scopes.value);
      if clientId.None? then Err(ArgumentError("client ID cannot be nil"))
      else
        var state := if csrf.Some? then csrf.value else randomState;
        Ok(AuthorizeEndpoint + "?" + Join(AuthorizeSegments(clientId.value, redirect, Join(granted, ','), state,
                                                            if permanent then "true" else "false"), '&'))
  }

  /** One `key=value` segment of a query, as `key, value = str.split('=')`
      reads it; a segment without both parts binds nothing. */
  function SegmentBinding(seg: string): Option<(string, string)>
  {
    var parts := Split(seg, '=');
    if |parts| >= 2 then Some((parts[0], parts[1])) else None
  }

  predicate BindsKey(seg: string, k: string)
  {
    SegmentBinding(seg).Some? && SegmentBinding(seg).value.0 == k
  }

  /** The parameters bound by a list of segments, taken left to right. */
  function Bindings(segs: seq<string>): map<string, string>
    decreases |segs|
  {
    if segs == [] then map[]
    else
      var before := Bindings(segs[..|segs| - 1]);
      match SegmentBinding(segs[|segs| - 1])
      case Some(kv) => before[kv.0 := kv.1]
      case None => before
  }

  /** The query parsing of `wait_for_code`: split on `&`, then on `=`. */
  function QueryParams(query: string): map<string, string>
  {
    Bindings(Split(query, '&'))
  }

  /** The authorization code carried by a redirect query, if any. */
  function CodeOf(query: string): Option<string>
  {
    var params := QueryParams(query);
    if "code" in params then Some(params["code"]) else None
  }

  /** A key is bound exactly when some segment binds it. */
  lemma {:induction false} BoundIffSomeSegment(segs: seq<string>, k: string)
    ensures k in Bindings(segs) <==> exists n | 0 <= n < |segs| :: BindsKey(segs[n], k)
    decreases |segs|
  {
    if segs != [] {
      var init := segs[..|segs| - 1];
      var last := segs[|segs| - 1];
      BoundIffSomeSegment(init, k);
      BindingStep(segs);
      if k in Bindings(init) {
        var n :| 0 <= n < |init| && BindsKey(init[n], k);
        assert segs[n] == init[n];
      }
      if exists n | 0 <= n < |segs| :: BindsKey(segs[n], k) {
        var n :| 0 <= n < |segs| && BindsKey(segs[n], k);
        if n < |init| {
          assert init[n] == segs[n];
        }
      }
    }
  }

  /** A bound key takes its value from the last segment that binds it. */
  lemma {:induction false} LastBindingWins(segs: seq<string>, k: string)
    requires k in Bindings(segs)
    ensures exists n | 0 <= n < |segs| ::
      SegmentBinding(segs[n]) == Some((k, Bindings(segs)[k]))
      && forall m | n < m < |segs| :: !BindsKey(segs[m], k)
    decreases |segs|
  {
    var init := segs[..|segs| - 1];
    var last := segs[|segs| - 1];
    BindingStep(segs);
    if BindsKey(last, k) {
      assert SegmentBinding(segs[|segs| - 1]) == Some((k, Bindings(segs)[k]));
    } else {
      LastBindingWins(init, k);
      var n :| 0 <= n < |init| && SegmentBinding(init[n]) == Some((k, Bindings(init)[k]))
        && forall m | n < m < |init| :: !BindsKey(init[m], k);
      assert segs[n] == init[n];
      forall m | n < m < |segs|
        ensures !BindsKey(segs[m], k)
      {
        if m < |init| {
          assert segs[m] == init[m];
        }
      }
    }
  }

  /** One step of the fold: the last segment is bound over the earlier ones. */
  lemma BindingStep(segs: seq<string>)
    requires segs != []
    ensures var before := Bindings(segs[..|segs| - 1]);
      var b := SegmentBinding(segs[|segs| - 1]);
      Bindings(segs) == if b.Some? then before[b.value.0 := b.value.1] else before
  {
  }

  /** Splitting `k=v` on `=` gives back the key and the value. */
  lemma BindingOfPair(k: string, v: string)
    requires k != "" && '=' !in k && v != "" && '=' !in v
    ensures SegmentBinding(k + "=" + v) == Some((k, v))
  {
    assert Join([k, v], '=') == k + "=" + v by {
      assert Join([v], '=') == v;
    }
    SplitOfJoin([k, v], '=');
  }

  /** The values are not percent-encoded, so a redirect URI holding its own
      `k=v` query is read back cut at its second `=`-separated field. */
  lemma RedirectWithEqualsCut(a: string, b: string)
    requires a != "" && '=' !in a && b != "" && '=' !in b
    ensures SegmentBinding("redirect_uri=" + a + "=" + b) == Some(("redirect_uri", a))
  {
    assert "redirect_uri=" + a + "=" + b == Join(["redirect_uri", a, b], '=') by {
      assert Join([b], '=') == b;
      assert Join([a, b], '=') == a + "=" + b;
    }
    SplitOfJoin(["redirect_uri", a, b], '=');
  }

  /** Text that survives as one query value: non-empty, no `&`, no `=`. */
  predicate QuerySafe(s: string)
  {
    s != "" && '&' !in s && '=' !in s
  }

  /** The five parameters of the authorization URL, in the order the URL lists
      them; the URL is the endpoint, `?`, and these joined by `&`. */
  function AuthorizeSegments(id: string, redirect: string, scope: string, state: string, permanent: string): seq<string>
  {
    ["client_id=" + id, "redirect_uri=" + redirect, "scope=" + scope, "state=" + state, "permanent=" + permanent]
  }

  /** Parsing the query of an authorization URL gives back each parameter,
      and the scope parameter splits back into the granted scopes. */
  lemma AuthorizeUrlRoundTrip(clientId: Option<string>, redirect: string, scopes: Option<seq<string>>,
                              permanent: bool, csrf: Option<string>,
                              validUri: string -> bool, randomState: string)
    requires AuthorizeUrl(clientId, redirect, scopes, permanent, csrf, validUri, randomState).Ok?
    requires QuerySafe(clientId.value) && QuerySafe(redirect)
    requires QuerySafe(if csrf.Some? then csrf.value else randomState)
    ensures var url := AuthorizeUrl(clientId, redirect, scopes, permanent, csrf, validUri, randomState).value;
      exists q :: (url == AuthorizeEndpoint + "?" + q
        && QueryParams(q) == map[
          "client_id" := clientId.value,
          "redirect_uri" := redirect,
          "scope" := Join(GrantedScopes(scopes.value), ','),
          "state" := (if csrf.Some? then csrf.value else randomState),
          "permanent" := (if permanent then "true" else "false")]
        && Split(QueryParams(q)["scope"], ',') == GrantedScopes(scopes.value)
        && Split(q, '&') == AuthorizeSegments(clientId.value, redirect, Join(GrantedScopes(scopes.value), ','),
                                              if csrf.Some? then csrf.value else randomState,
                                              if permanent then "true" else "false"))
  {
    var granted := GrantedScopes(scopes.value);
    assert forall i | 0 <= i < |granted| :: granted[i] in Scopes;
    var state := if csrf.Some? then csrf.value else randomState;
    var perm := if permanent then "true" else "false";
    var q := Join(AuthorizeSegments(clientId.value, redirect, Join(granted, ','), state, perm), '&');
    QueryRoundTrip(clientId.value, redirect, granted, state, perm);
    ScopeListIsSafe(granted);
    SegmentsSplitBack(clientId.value, redirect, Join(granted, ','), state, perm);
    assert AuthorizeUrl(clientId, redirect, scopes, permanent, csrf, validUri, randomState).value
      == AuthorizeEndpoint + "?" + q;
  }

  /** Parsing the `&`-join of the five segments gives back the five parameters,
      and the scope parameter splits back into the scope list. */
  lemma QueryRoundTrip(id: string, redirect: string, granted: seq<string>, state: string, permanent: string)
    requires QuerySafe(id) && QuerySafe(redirect) && QuerySafe(state) && QuerySafe(permanent)
    requires granted != [] && forall i | 0 <= i < |granted| :: granted[i] in Scopes
    ensures var q := Join(AuthorizeSegments(id, redirect, Join(granted, ','), state, permanent), '&');
      QueryParams(q) == map[
        "client_id" := id, "redirect_uri" := redirect, "scope" := Join(granted, ','), "state" := state,
        "permanent" := permanent]
      && Split(QueryParams(q)["scope"], ',') == granted
  {
    var scope := Join(granted, ',');
    ScopeListIsSafe(granted);
    SplitOfJoin(granted, ',');
    SegmentsSplitBack(id, redirect, scope, state, permanent);
    QueryOfSegments(id, redirect, scope, state, permanent);
  }

  /** The `&`-join of the five segments splits back into them, in order. */
  lemma SegmentsSplitBack(id: string, redirect: string, scope: string, state: string, permanent: string)
    requires QuerySafe(id) && QuerySafe(redirect) && QuerySafe(scope) && QuerySafe(state)
    requires QuerySafe(permanent)
    ensures var segs := AuthorizeSegments(id, redirect, scope, state, permanent);
      Split(Join(segs, '&'), '&') == segs
  {
    var segs := AuthorizeSegments(id, redirect, scope, state, permanent);
    SegmentsAreSafe(id, redirect, scope, state, permanent);
    SplitOfJoin(segs, '&');
  }

  /** The five segments are non-empty and hold no `&`. */
  lemma SegmentsAreSafe(id: string, redirect: string, scope: string, state: string, permanent: string)
    requires QuerySafe(id) && QuerySafe(redirect) && QuerySafe(scope) && QuerySafe(state)
    requires QuerySafe(permanent)
    ensures var segs := AuthorizeSegments(id, redirect, scope, state, permanent);
      forall i | 0 <= i < |segs| :: segs[i] != "" && '&' !in segs[i]
  {
  }

  /** Binding the five segments gives the five parameters. */
  lemma QueryOfSegments(id: string, redirect: string, scope: string, state: string, permanent: string)
    requires QuerySafe(id) && QuerySafe(redirect) && QuerySafe(scope) && QuerySafe(state)
    requires QuerySafe(permanent)
    ensures Bindings(AuthorizeSegments(id, redirect, scope, state, permanent)) == map[
        "client_id" := id, "redirect_uri" := redirect, "scope" := scope, "state" := state,
        "permanent" := permanent]
    ensures Bindings(AuthorizeSegments(id, redirect, scope, state, permanent))["scope"] == scope
  {
    var segs := AuthorizeSegments(id, redirect, scope, state, permanent);
    QueryOfFirstSegments(id, redirect, scope, state, permanent);
    BindingOfPair("state", state);
    BindingOfPair("permanent", permanent);
    assert segs[3] == "state" + "=" + state;
    assert segs[4] == "permanent" + "=" + permanent;
    assert segs[..4][..3] == segs[..3];
    BindingStep(segs[..4]);
    assert segs[..5][..4] == segs[..4];
    BindingStep(segs);
  }

  /** Binding the first three segments gives the first three parameters. */
  lemma QueryOfFirstSegments(id: string, redirect: string, scope: string, state: string, permanent: string)
    requires QuerySafe(id) && QuerySafe(redirect) && QuerySafe(scope)
    ensures Bindings(AuthorizeSegments(id, redirect, scope, state, permanent)[..3]) == map[
        "client_id" := id, "redirect_uri" := redirect, "scope" := scope]
  {
    var segs := AuthorizeSegments(id, redirect, scope, state, permanent);
    BindingOfPair("client_id", id);
    BindingOfPair("redirect_uri", redirect);
    BindingOfPair("scope", scope);
    assert segs[0] == "client_id" + "=" + id;
    assert segs[1] == "redirect_uri" + "=" + redirect;
    assert segs[2] == "scope" + "=" + scope;
    assert segs[..1][..0] == [];
    BindingStep(segs[..1]);
    assert segs[..2][..1] == segs[..1];
    BindingStep(segs[..2]);
    assert segs[..3][..2] == segs[..2];
    BindingStep(segs[..3]);
  }

  /** The scope names are plain lower-case words. */
  lemma ScopeNamesArePlain()
    ensures forall i | 0 <= i < |Scopes| :: Scopes[i] != "" && '&' !in Scopes[i] && '=' !in Scopes[i] && ',' !in Scopes[i]
  {
  }

  /** A comma-join of valid scope names is non-empty and free of `&` and `=`,
      and no scope name holds a comma. */
  lemma ScopeListIsSafe(granted: seq<string>)
    requires granted != []
    requires forall i | 0 <= i < |granted| :: granted[i] in Scopes
    ensures QuerySafe(Join(granted, ','))
    ensures forall i | 0 <= i < |granted| :: granted[i] != "" && ',' !in granted[i]
  {
    ScopeNamesArePlain();
    JoinKeepsOut(granted, ',', '&');
    JoinKeepsOut(granted, ',', '=');
    JoinStartsWithFirst(granted, ',');
  }

  /** A character absent from every piece and distinct from the separator is
      absent from the join. */
  lemma {:induction false} JoinKeepsOut(xs: seq<string>, c: char, x: char)
    requires x != c
    requires forall i | 0 <= i < |xs| :: x !in xs[i]
    ensures x !in Join(xs, c)
    decreases |xs|
  {
    if |xs| > 1 {
      JoinKeepsOut(xs[1..], c, x);
      assert forall i | 0 <= i < |xs[1..]| :: xs[1..][i] == xs[i + 1];
    }
  }

  lemma JoinStartsWithFirst(xs: seq<string>, c: char)
    requires xs != []
    ensures xs[0] <= Join(xs, c)
  {
  }

  /** `Ruqqus.available?(name, regex, route)`: no request unless `name` is a
      string the pattern accepts; otherwise the truthiness of `json[name]`. */
  function Available(name: Value, pattern: LinePattern, route: string, net: Network): (r: Result<bool>)
    ensures !Truthy(name) ==> r == Ok(false)
    ensures name.Str? && !Matches(pattern, name.s) ==> r == Ok(false)
    ensures (name.Str? && Matches(pattern, name.s) && net(AvailabilityRequest(route)).Reply?
             && net(AvailabilityRequest(route)).body == Some(Hash(map[]))) ==> r == Ok(false)
    ensures Truthy(name) && !name.Str? ==> r == Err(TypeError)
    ensures name.Str? && Matches(pattern, name.s) ==>
      var resp := net(AvailabilityRequest(route));
      (resp.Failed? ==> r == Err(TransportError))
      && (resp.Reply? && resp.body.None? ==> r == Err(ParserError))
      && (resp.Reply? && resp.body.Some? ==> r == Lookup(resp.body.value, name.s))
  {
    if !Truthy(name) then Ok(false)
    else match MatchValue(pattern, name)
      case Err(e) => Err(e)
      case Ok(false) => Ok(false)
      case Ok(true) =>
        match net(AvailabilityRequest(route))
        case Failed => Err(TransportError)
        case Reply(_, _, body) =>
          match body
          case None => Err(ParserError)
          case Some(json) => Lookup(json, name.s)
  }

  /** The plain GET the module-level check sends. */
  function AvailabilityRequest(route: string): Request
  {
    Request(GET, route, map[], map[])
  }

  /** `!!json[key]` for a string key on whatever JSON came back. */
  function Lookup(json: Value, key: string): (r: Result<bool>)
    ensures json.Hash? ==> r == Ok(Truthy(Get(json.fields, key)))
    ensures json.Str? ==> r == Ok(Contains(json.s, key))
    ensures r.Err? <==> !(json.Hash? || json.Str?)
  {
    match json
    case Hash(fields) => Ok(Truthy(Get(fields, key)))
    case Str(s) => Ok(Contains(s, key))
    case Arr(_) => Err(TypeError)
    case Int(_) => Err(TypeError)
    case _ => Err(NoMethodError)
  }

  /** `Ruqqus.guild_available?`: the route gets `Module#name` appended, not the
      guild name. */
  function GuildAvailable(name: Value, net: Network): Result<bool>
  {
    Available(name, GuildName, GuildAvailableRoute + "Ruqqus", net)
  }

  /** `Ruqqus.username_available?`, with the same route defect. */
  function UsernameAvailable(name: Value, net: Network): Result<bool>
  {
    Available(name, Username, UsernameAvailableRoute + "Ruqqus", net)
  }

  /** Every valid name queries the same URL, so two valid names get their
      answers from the one reply. */
  lemma AvailabilityIgnoresName(a: string, b: string, net: Network)
    requires Matches(GuildName, a) && Matches(GuildName, b)
    requires net(AvailabilityRequest(GuildAvailableRoute + "Ruqqus")) == Reply(200, map[], Some(Hash(map[a := Bool(true)])))
    ensures GuildAvailable(Str(a), net) == Ok(true)
    ensures GuildAvailable(Str(b), net) == Ok(a == b)
  {
  }
}

=== FILE: text.dfy ===
/**
 * The parts of Ruby's String and Array behaviour the client depends on:
 * `String#split` with a one-character separator, `Array#join`, `sub` with a
 * line-anchored literal (`s.sub(/^t3_/, '')`), `strip`, `to_i`, and the
 * decimal rendering that string interpolation gives an Integer.
 */
module RubyText {

  /** Index of the first `c` in `s`, or `|s|` when `s` holds none. */
  function IndexOf(s: string, c: char): (k: nat)
    ensures k <= |s|
    ensures k < |s| ==> s[k] == c
    ensures forall i | 0 <= i < k :: s[i] != c
  {
    if |s| == 0 then 0
    else if s[0] == c then 0
    else 1 + IndexOf(s[1..], c)
  }

  /** The pieces of `s` between occurrences of `c`, empty pieces included:
      the fields of "a,,b," are "a", "", "b" and "". */
  function Fields(s: string, c: char): seq<string>
    decreases |s|
  {
    var k := IndexOf(s, c);
    if k == |s| then [s] else [s[..k]] + Fields(s[k + 1..], c)
  }

  /** Drops the empty strings at the end of `xs`, as `String#split` does. */
  function DropTrailingEmpty(xs: seq<string>): (r: seq<string>)
    ensures r <= xs
    ensures |r| > 0 ==> r[|r| - 1] != ""
    ensures forall i | |r| <= i < |xs| :: xs[i] == ""
    decreases |xs|
  {
    if |xs| > 0 && xs[|xs| - 1] == "" then DropTrailingEmpty(xs[..|xs| - 1]) else xs
  }

  /** Ruby's `s.split(c)` for a one-character separator other than a space. */
  function Split(s: string, c: char): seq<string>
  {
    DropTrailingEmpty(Fields(s, c))
  }

  /** Ruby's `xs.join(c)`. */
  function Join(xs: seq<string>, c: char): string
    decreases |xs|
  {
    if |xs| == 0 then ""
    else if |xs| == 1 then xs[0]
    else xs[0] + [c] + Join(xs[1..], c)
  }

  /** `s[i..j]` is one whole piece of `s`: it starts at the beginning or just
      after a `c`, ends at the end or just before a `c`, and holds no `c`. */
  ghost predicate IsPiece(s: string, c: char, i: int, j: int)
  {
    && 0 <= i <= j <= |s|
    && (i == 0 || s[i - 1] == c)
    && (j == |s| || s[j] == c)
    && forall m | i <= m < j :: s[m] != c
  }

  lemma NotInWhenAbsent(s: string, c: char)
    requires forall m | 0 <= m < |s| :: s[m] != c
    ensures c !in s
  {
  }

  lemma {:induction false} FieldsOfSeparated(a: string, b: string, c: char)
    requires c !in a
    ensures Fields(a + [c] + b, c) == [a] + Fields(b, c)
  {
    var s := a + [c] + b;
    var k := IndexOf(s, c);
    assert s[|a|] == c;
    assert forall m | 0 <= m < |a| :: s[m] == a[m];
    assert k == |a|;
    assert s[..k] == a;
    assert s[k + 1..] == b;
  }

  lemma FieldsOfPlain(s: string, c: char)
    requires c !in s
    ensures Fields(s, c) == [s]
  {
  }

  /** Splitting a join on its own separator gives back the pieces. */
  lemma {:induction false} FieldsOfJoin(xs: seq<string>, c: char)
    requires |xs| >= 1
    requires forall i | 0 <= i < |xs| :: c !in xs[i]
    ensures Fields(Join(xs, c), c) == xs
    decreases |xs|
  {
    if |xs| == 1 {
      FieldsOfPlain(xs[0], c);
    } else {
      FieldsOfJoin(xs[1..], c);
      FieldsOfSeparated(xs[0], Join(xs[1..], c), c);
    }
  }

  /** Joining the fields of `s` gives back `s`, and no field holds the separator. */
  lemma {:induction false} JoinOfFields(s: string, c: char)
    ensures Join(Fields(s, c), c) == s
    ensures forall i | 0 <= i < |Fields(s, c)| :: c !in Fields(s, c)[i]
    decreases |s|
  {
    var k := IndexOf(s, c);
    if k == |s| {
      NotInWhenAbsent(s, c);
      FieldsOfPlain(s, c);
    } else {
      var t := s[k + 1..];
      JoinOfFields(t, c);
      var fs := Fields(s, c);
      assert fs == [s[..k]] + Fields(t, c);
      assert fs[1..] == Fields(t, c);
      assert s == s[..k] + [c] + t;
      NotInWhenAbsent(s[..k], c);
      forall i | 0 <= i < |fs|
        ensures c !in fs[i]
      {
        if i > 0 {
          assert fs[i] == Fields(t, c)[i - 1];
        }
      }
    }
  }

  /** `String#split` undoes `Array#join` for non-empty pieces free of the separator. */
  lemma SplitOfJoin(xs: seq<string>, c: char)
    requires forall i | 0 <= i < |xs| :: xs[i] != "" && c !in xs[i]
    ensures Split(Join(xs, c), c) == xs
  {
    if |xs| == 0 {
      assert Fields("", c) == [""];
    } else {
      FieldsOfJoin(xs, c);
    }
  }

  /** A piece of the text after a separator at `k` is a piece of the whole text. */
  lemma PieceAfterSeparator(s: string, c: char, k: nat, i': int, j': int) returns (i: int, j: int)
    requires k < |s| && s[k] == c
    requires IsPiece(s[k + 1..], c, i', j')
    ensures i == i' + k + 1 && j == j' + k + 1
    ensures IsPiece(s, c, i, j) && s[i..j] == s[k + 1..][i'..j']
  {
    var t := s[k + 1..];
    i, j := i' + k + 1, j' + k + 1;
    assert i' > 0 ==> s[i - 1] == t[i' - 1];
    assert j' < |t| ==> s[j] == t[j'];
    forall m | i <= m < j
      ensures s[m] != c
    {
      assert s[m] == t[m - k - 1];
    }
  }

  /** A piece of the whole text lying after a separator at `k` is a piece of the rest. */
  lemma PieceBeforeSeparator(s: string, c: char, k: nat, i: int, j: int) returns (i': int, j': int)
    requires k < |s| && s[k] == c && k < i
    requires IsPiece(s, c, i, j)
    ensures i' == i - k - 1 && j' == j - k - 1
    ensures IsPiece(s[k + 1..], c, i', j') && s[k + 1..][i'..j'] == s[i..j]
  {
    var t := s[k + 1..];
    i', j' := i - k - 1, j - k - 1;
    assert i' > 0 ==> t[i' - 1] == s[i - 1];
    assert j' < |t| ==> t[j'] == s[j];
    forall m | i' <= m < j'
      ensures t[m] != c
    {
      assert t[m] == s[m + k + 1];
    }
  }

  /** Where the `n`-th field of `s` sits: it is a whole piece of `s`. */
  lemma {:induction false} FieldIsPiece(s: string, c: char, n: nat) returns (i: int, j: int)
    requires n < |Fields(s, c)|
    ensures IsPiece(s, c, i, j) && s[i..j] == Fields(s, c)[n]
    decreases |s|
  {
    var k := IndexOf(s, c);
    if k == |s| {
      assert Fields(s, c) == [s];
      i, j := 0, |s|;
      assert s[i..j] == s;
    } else {
      var t := s[k + 1..];
      var fs := Fields(s, c);
      assert fs == [s[..k]] + Fields(t, c);
      if n == 0 {
        i, j := 0, k;
        assert fs[0] == s[..k];
        assert s[i..j] == s[..k];
        assert IsPiece(s, c, i, j);
      } else {
        assert fs[n] == Fields(t, c)[n - 1];
        var i', j' := FieldIsPiece(t, c, n - 1);
        i, j := PieceAfterSeparator(s, c, k, i', j');
      }
    }
  }

  /** Every whole piece of `s` is one of its fields. */
  lemma {:induction false} PieceIsField(s: string, c: char, i: int, j: int)
    requires IsPiece(s, c, i, j)
    ensures s[i..j] in Fields(s, c)
    decreases |s|
  {
    var k := IndexOf(s, c);
    if k == |s| {
      assert Fields(s, c) == [s];
      assert i == 0;
      assert j == |s|;
      assert s[i..j] == s;
    } else {
      var t := s[k + 1..];
      assert Fields(s, c) == [s[..k]] + Fields(t, c);
      if i <= k {
        assert i == 0;
        assert j <= k;
        assert j == k;
        assert s[i..j] == s[..k];
      } else {
        var i', j' := PieceBeforeSeparator(s, c, k, i, j);
        PieceIsField(t, c, i', j');
      }
    }
  }

  /** The fields of `s` are exactly its whole pieces. */
  lemma FieldsArePieces(s: string, c: char, x: string)
    ensures x in Fields(s, c) <==> exists i, j :: IsPiece(s, c, i, j) && s[i..j] == x
  {
    if x in Fields(s, c) {
      var n :| 0 <= n < |Fields(s, c)| && Fields(s, c)[n] == x;
      var i, j := FieldIsPiece(s, c, n);
    }
    if exists i, j :: IsPiece(s, c, i, j) && s[i..j] == x {
      var i, j :| IsPiece(s, c, i, j) && s[i..j] == x;
      PieceIsField(s, c, i, j);
    }
  }

  /** Position `i` of `s` is the start of a line: the beginning, or just after a newline. */
  ghost predicate LineStart(s: string, i: int)
  {
    0 <= i <= |s| && (i == 0 || s[i - 1] == '\n')
  }

  /** Position `j` of `s` is the end of a line: the end, or just before a newline. */
  ghost predicate LineEnd(s: string, j: int)
  {
    0 <= j <= |s| && (j == |s| || s[j] == '\n')
  }

  /** A line of `s` begins with `p` at position `i`. */
  ghost predicate LineBeginsWith(s: string, p: string, i: int)
  {
    LineStart(s, i) && i + |p| <= |s| && s[i..i + |p|] == p
  }

  /** The first position at or after `i` holding `c`, or `|s|` when there is none. */
  function IndexFrom(s: string, c: char, i: nat): (k: nat)
    requires i <= |s|
    ensures i <= k <= |s|
    ensures k < |s| ==> s[k] == c
    ensures forall m | i <= m < k :: s[m] != c
    decreases |s| - i
  {
    if i == |s| || s[i] == c then i else IndexFrom(s, c, i + 1)
  }

  /** Ruby's `s.sub(/^p/, '')` for a literal `p`, scanning the lines that
      start at `i` or later: the first of them that begins with `p` loses it. */
  function SubFrom(s: string, p: string, i: nat): string
    requires i <= |s|
    decreases |s| - i
  {
    if i + |p| <= |s| && s[i..i + |p|] == p then s[..i] + s[i + |p|..]
    else
      var k := IndexFrom(s, '\n', i);
      if k == |s| then s else SubFrom(s, p, k + 1)
  }

  /** Ruby's `s.sub(/^p/, '')` for a literal `p`: removes the first occurrence
      of `p` found at the start of a line of `s`. */
  function SubLinePrefix(s: string, p: string): string
  {
    SubFrom(s, p, 0)
  }

  /** A string that starts with `p` loses exactly that prefix. */
  lemma SubLinePrefixAtStart(s: string, p: string)
    requires p <= s
    ensures SubLinePrefix(s, p) == s[|p|..]
  {
    assert s[0..|p|] == p;
    assert s[..0] + s[|p|..] == s[|p|..];
  }

  /** From a line start `i` on, with no line there beginning with `p`, the
      scan changes nothing. */
  lemma {:induction false} SubFromUnchanged(s: string, p: string, i: nat)
    requires LineStart(s, i)
    requires forall j | i <= j <= |s| :: !LineBeginsWith(s, p, j)
    ensures SubFrom(s, p, i) == s
    decreases |s| - i
  {
    assert !LineBeginsWith(s, p, i);
    var k := IndexFrom(s, '\n', i);
    if k < |s| {
      assert LineStart(s, k + 1);
      SubFromUnchanged(s, p, k + 1);
    }
  }

  /** When no line of `s` begins with `p`, `SubLinePrefix` leaves `s` alone. */
  lemma SubLinePrefixUnchanged(s: string, p: string)
    requires forall i :: !LineBeginsWith(s, p, i)
    ensures SubLinePrefix(s, p) == s
  {
    SubFromUnchanged(s, p, 0);
  }

  /** Scanning from a line start `j` up to the first line start `i` that
      begins with `p` removes that occurrence and nothing else. */
  lemma {:induction false} SubFromFirst(s: string, p: string, i: nat, j: nat)
    requires LineStart(s, j) && j <= i && LineBeginsWith(s, p, i)
    requires forall m | j <= m < i :: !LineBeginsWith(s, p, m)
    ensures SubFrom(s, p, j) == s[..i] + s[i + |p|..]
    decreases i - j
  {
    if j < i {
      assert !LineBeginsWith(s, p, j);
      var k := IndexFrom(s, '\n', j);
      assert s[i - 1] == '\n';
      assert LineStart(s, k + 1);
      SubFromFirst(s, p, i, k + 1);
    }
  }

  /** `SubLinePrefix` removes the occurrence of `p` at the first line start
      where one begins, and nothing else. */
  lemma SubLinePrefixFirst(s: string, p: string, i: nat)
    requires LineBeginsWith(s, p, i)
    requires forall j | 0 <= j < i :: !LineBeginsWith(s, p, j)
    ensures SubLinePrefix(s, p) == s[..i] + s[i + |p|..]
  {
    SubFromFirst(s, p, i, 0);
  }

  /** The characters `String#strip` removes: NUL and ASCII whitespace. */
  predicate IsStripped(c: char)
  {
    c == '\0' || IsAsciiSpace(c)
  }

  /** ASCII whitespace: space, tab, newline, vertical tab, form feed, carriage return. */
  predicate IsAsciiSpace(c: char)
  {
    c == ' ' || c == '\t' || c == '\n' || c == '\U{0B}' || c == '\U{0C}' || c == '\r'
  }

  /** Length of the run of stripped characters at the front of `s`. */
  function LeadCount(s: string): (k: nat)
    ensures k <= |s|
    ensures forall m | 0 <= m < k :: IsStripped(s[m])
    ensures k < |s| ==> !IsStripped(s[k])
    decreases |s|
  {
    if |s| > 0 && IsStripped(s[0]) then 1 + LeadCount(s[1..]) else 0
  }

  /** Length of the run of stripped characters at the back of `s`. */
  function TailCount(s: string): (k: nat)
    ensures k <= |s|
    ensures forall m | |s| - k <= m < |s| :: IsStripped(s[m])
    ensures k < |s| ==> !IsStripped(s[|s| - k - 1])
    decreases |s|
  {
    if |s| > 0 && IsStripped(s[|s| - 1]) then 1 + TailCount(s[..|s| - 1]) else 0
  }

  /** Ruby's `String#strip`: drops the NUL/whitespace runs at both ends. */
  function Strip(s: string): string
  {
    var a := LeadCount(s);
    var u := s[a..];
    u[..|u| - TailCount(u)]
  }

  /** A string that neither begins nor ends with a stripped character is left
      as it is by `strip`. */
  lemma StripClean(s: string)
    requires s == "" || (!IsStripped(s[0]) && !IsStripped(s[|s| - 1]))
    ensures Strip(s) == s
  {
    assert LeadCount(s) == 0;
    assert s[0..] == s;
    assert TailCount(s) == 0;
  }

  /** What `strip` leaves is a middle slice of `s` that neither begins nor ends
      with a stripped character, and everything cut off around it is stripped. */
  lemma StripSpec(s: string)
    ensures exists i, j :: 0 <= i <= j <= |s| && Strip(s) == s[i..j]
              && (forall m | 0 <= m < i :: IsStripped(s[m]))
              && (forall m | j <= m < |s| :: IsStripped(s[m]))
    ensures Strip(s) == "" || (!IsStripped(Strip(s)[0]) && !IsStripped(Strip(s)[|Strip(s)| - 1]))
  {
    var a := LeadCount(s);
    var u := s[a..];
    var b := TailCount(u);
    var j := a + |u| - b;
    assert Strip(s) == s[a..j];
    forall m | j <= m < |s|
      ensures IsStripped(s[m])
    {
      assert s[m] == u[m - a];
    }
    if Strip(s) != "" {
      assert Strip(s)[0] == u[0];
      assert Strip(s)[|Strip(s)| - 1] == u[|u| - b - 1];
    }
  }

  predicate IsDigit(c: char)
  {
    '0' <= c <= '9'
  }

  function DigitChar(d: nat): char
    requires d < 10
  {
    "0123456789"[d]
  }

  function DigitValue(c: char): nat
    requires IsDigit(c)
  {
    (c as int - '0' as int) as nat
  }

  /** Decimal digits of `n`, most significant first, with no leading zero. */
  function NatToDecimal(n: nat): (r: string)
    ensures |r| >= 1
    ensures forall i | 0 <= i < |r| :: IsDigit(r[i])
    decreases n
  {
    if n < 10 then [DigitChar(n)] else NatToDecimal(n / 10) + [DigitChar(n % 10)]
  }

  /** What `"#{i}"` renders for an Integer `i`. */
  function IntToDecimal(i: int): string
  {
    if i < 0 then "-" + NatToDecimal(-i) else NatToDecimal(i)
  }

  /** The digits of the numeral at the front of `s`: decimal digits, where one
      `_` may stand between two of them; the underscores are dropped. */
  function LeadDigits(s: string): (d: string)
    ensures |d| <= |s|
    ensures forall i | 0 <= i < |d| :: IsDigit(d[i])
    ensures d == [] <==> s == [] || !IsDigit(s[0])
    decreases |s|
  {
    if |s| == 0 || !IsDigit(s[0]) then []
    else if |s| >= 3 && s[1] == '_' && IsDigit(s[2]) then [s[0]] + LeadDigits(s[2..])
    else [s[0]] + LeadDigits(s[1..])
  }

  /** A numeral without underscores is read whole. */
  lemma {:induction false} LeadDigitsOfDigits(d: string)
    requires forall i | 0 <= i < |d| :: IsDigit(d[i])
    ensures LeadDigits(d) == d
    decreases |d|
  {
    if |d| > 0 {
      LeadDigitsOfDigits(d[1..]);
    }
  }

  /** An underscore between two digits is skipped, and only one. */
  lemma UnderscoreBetweenDigits(x: char, y: char, rest: string)
    requires IsDigit(x) && IsDigit(y)
    ensures LeadDigits([x, '_', y] + rest) == [x] + LeadDigits([y] + rest)
    ensures LeadDigits([x, '_', '_', y] + rest) == [x]
  {
    assert ([x, '_', y] + rest)[2..] == [y] + rest;
    assert ([x, '_', '_', y] + rest)[1..] == ['_', '_', y] + rest;
  }

  /** `String#to_i` in base 10 skips a `0d` or `0D` radix prefix. */
  function DropRadix(s: string): (r: string)
    ensures r == s || (|s| >= 2 && r == s[2..] && s[0] == '0' && (s[1] == 'd' || s[1] == 'D'))
  {
    if |s| >= 2 && s[0] == '0' && (s[1] == 'd' || s[1] == 'D') then s[2..] else s
  }

  /** The number a string of decimal digits denotes. */
  function DigitsValue(d: string): nat
    requires forall i | 0 <= i < |d| :: IsDigit(d[i])
    decreases |d|
  {
    if |d| == 0 then 0 else DigitsValue(d[..|d| - 1]) * 10 + DigitValue(d[|d| - 1])
  }

  /** Ruby's `String#to_i`: leading ASCII whitespace, an optional sign, an
      optional `0d` prefix, then the numeral at the front (digits with single
      underscores between them); 0 when there is none. */
  function ToI(s: string): int
    decreases |s|
  {
    if |s| > 0 && IsAsciiSpace(s[0]) then ToI(s[1..])
    else if |s| > 0 && s[0] == '-' then -(DigitsValue(LeadDigits(DropRadix(s[1..]))) as int)
    else if |s| > 0 && s[0] == '+' then DigitsValue(LeadDigits(DropRadix(s[1..])))
    else DigitsValue(LeadDigits(DropRadix(s)))
  }

  lemma ToIGrouped()
    ensures ToI("1_000") == 1000
  {
    assert "1_000" == ['1', '_', '0'] + "00";
    UnderscoreBetweenDigits('1', '0', "00");
    assert ['0'] + "00" == "000";
    LeadDigitsOfDigits("000");
    assert LeadDigits("1_000") == "1000";
    assert DigitsValue("1000") == 1000 by {
      assert "1000"[..3] == "100" && "100"[..2] == "10" && "10"[..1] == "1";
    }
  }

  lemma ToISignedGrouped()
    ensures ToI(" -2_5x") == -25
  {
    var t := " -2_5x";
    assert t[1..] == "-2_5x" && t[1..][1..] == "2_5x";
    assert "2_5x" == ['2', '_', '5'] + "x";
    UnderscoreBetweenDigits('2', '5', "x");
    assert ['5'] + "x" == "5x";
    assert LeadDigits("5x") == "5";
    assert DigitsValue("25") == 25 by {
      assert "25"[..1] == "2";
    }
  }

  lemma ToIDoubleUnderscore()
    ensures ToI("1__000") == 1
  {
    assert "1__000" == ['1', '_', '_', '0'] + "00";
    UnderscoreBetweenDigits('1', '0', "00");
    assert DigitsValue("1") == 1;
  }

  lemma {:induction false} DigitsValueOfDecimal(n: nat)
    ensures DigitsValue(NatToDecimal(n)) == n
    decreases n
  {
    if n >= 10 {
      DigitsValueOfDecimal(n / 10);
      var d := NatToDecimal(n);
      assert d[..|d| - 1] == NatToDecimal(n / 10);
    }
  }

  /** `to_i` reads back what interpolating an Integer writes. */
  lemma ToIOfDecimal(i: int)
    ensures ToI(IntToDecimal(i)) == i
  {
    var n: nat := if i < 0 then -i else i;
    var d := NatToDecimal(n);
    DigitsValueOfDecimal(n);
    LeadDigitsOfDigits(d);
    assert DropRadix(d) == d by {
      assert |d| < 2 || IsDigit(d[1]);
    }
    if i < 0 {
      var s := "-" + d;
      assert s[1..] == d;
    } else {
      assert !IsAsciiSpace(d[0]);
    }
  }

  /** `x` occurs somewhere in `s`. */
  predicate Contains(s: string, x: string)
  {
    exists i | 0 <= i <= |s| :: x <= s[i..]
  }
}

=== FILE: token.dfy ===
/** The OAuth token of `Ruqqus::Token`: the data hash returned by the grant
    endpoint, the client credentials, and a single refresh-callback slot. */
module Tokens {
  import opened RubyText
  import opened Values
  import opened Http

  /** `callback` is a handle standing for the block given to `on_refresh`. */
  datatype Token = Token(clientId: Value, clientSecret: Value, data: Payload, callback: Option<nat>)

  /** What a token operation does outside the token: requests sent, and
      invocations of the refresh callback with the token passed to it. */
  datatype Event = Sent(request: Request) | Notified(callback: nat, token: Token)

  function AccessToken(t: Token): Value
  {
    Get(t.data, "access_token")
  }

  function RefreshToken(t: Token): Value
  {
    Get(t.data, "refresh_token")
  }

  function TokenType(t: Token): Value
  {
    Get(t.data, "token_type")
  }

  /** `expired?`: the stored expiry, in whole seconds, is not after `now`.
      `Time.at` rejects anything but a number. */
  function Expired(t: Token, now: int): (r: Result<bool>)
    ensures r.Ok? <==> Get(t.data, "expires_at").Int?
    ensures r.Ok? ==> (r.value <==> Get(t.data, "expires_at").i <= now)
    ensures r.Err? ==> r.error == TypeError
  {
    match Get(t.data, "expires_at")
    case Int(at) => Ok(at <= now)
    case _ => Err(TypeError)
  }

  /** Once expired, a token stays expired as time goes on. */
  lemma ExpiredStaysExpired(t: Token, now: int, later: int)
    requires now <= later && Expired(t, now) == Ok(true)
    ensures Expired(t, later) == Ok(true)
  {
  }

  /** `scopes`: the stored comma-separated string, split on commas. */
  function Scopes(t: Token): (r: Result<seq<string>>)
    ensures r.Ok? <==> Get(t.data, "scopes").Str?
    ensures r.Err? ==> r.error == NoMethodError
    ensures r.Ok? ==> forall i | 0 <= i < |r.value| :: ',' !in r.value[i]
    ensures r.Ok? && |r.value| > 0 ==> r.value[|r.value| - 1] != ""
  {
    match Get(t.data, "scopes")
    case Str(s) => SplitNamesHaveNoComma(s); Ok(Split(s, ','))
    case _ => Err(NoMethodError)
  }

  /** Every name `split` yields is free of the separator. */
  lemma SplitNamesHaveNoComma(s: string)
    ensures forall i | 0 <= i < |Split(s, ',')| :: ',' !in Split(s, ',')[i]
  {
    JoinOfFields(s, ',');
    var fs := Fields(s, ',');
    var xs := Split(s, ',');
    assert xs <= fs;
    forall i | 0 <= i < |xs|
      ensures ',' !in xs[i]
    {
      assert xs[i] == fs[i];
    }
  }

  /** A comma-joined list of non-empty, comma-free scope names is read back as
      the same list. */
  lemma ScopesRoundTrip(t: Token, xs: seq<string>)
    requires forall i | 0 <= i < |xs| :: xs[i] != "" && ',' !in xs[i]
    requires Get(t.data, "scopes") == Str(Join(xs, ','))
    ensures Scopes(t) == Ok(xs)
  {
    SplitOfJoin(xs, ',');
  }

  /** The request `refresh` sends. */
  function RefreshRequest(t: Token): (req: Request)
    ensures req.verb == POST && req.url == GrantUrl
    ensures req.headers == map["User-Agent" := Str(UserAgent), "Authorization" := Str("Bearer " + ToS(AccessToken(t)))]
    ensures req.params.Keys == {"client_id", "client_secret", "refresh_token", "grant_type"}
    ensures req.params["refresh_token"] == RefreshToken(t) && req.params["grant_type"] == Str("refresh")
    ensures req.params["client_id"] == t.clientId && req.params["client_secret"] == t.clientSecret
  {
    Request(POST, GrantUrl,
      map["client_id" := t.clientId, "client_secret" := t.clientSecret,
          "refresh_token" := RefreshToken(t), "grant_type" := Str("refresh")],
      map["User-Agent" := Str(UserAgent), "Authorization" := Str("Bearer " + ToS(AccessToken(t)))])
  }

  /** The token after an operation, the exception it raised if any, and what it did. */
  datatype Outcome = Outcome(token: Token, failure: Option<Error>, events: seq<Event>)

  /** The exception `v[:key]` raises on a decoded body that is not a hash:
      nil and booleans have no `[]`, and strings, arrays and integers take no
      symbol index. */
  function KeyReadError(v: Value): (e: Error)
    requires !v.Hash?
    ensures e == NoMethodError <==> v.Nil? || v.Bool?
    ensures e == NoMethodError || e == TypeError
  {
    if v.Nil? || v.Bool? then NoMethodError else TypeError
  }

  /** Whether a refresh reply is accepted: status 200, or an `oauth_error` in the body. */
  predicate RefreshAccepted(resp: Response)
  {
    resp.Reply? && resp.body.Some? && resp.body.value.Hash?
    && (resp.code == 200 || Truthy(Get(resp.body.value.fields, "oauth_error")))
  }

  /** `refresh`: one request to the grant endpoint; on acceptance the reply is
      merged into the data hash and the callback, if set, is called once. */
  function Refresh(t: Token, net: Network): (o: Outcome)
    ensures |o.events| >= 1 && o.events[0] == Sent(RefreshRequest(t))
    ensures o.failure.None? <==> RefreshAccepted(net(RefreshRequest(t)))
    ensures o.failure.Some? ==> o.token == t && o.events == [Sent(RefreshRequest(t))]
    ensures o.failure.None? ==>
      var d := net(RefreshRequest(t)).body.value.fields;
      o.token.clientId == t.clientId && o.token.clientSecret == t.clientSecret
      && o.token.callback == t.callback
      && o.token.data.Keys == t.data.Keys + d.Keys
      && (forall k | k in d :: o.token.data[k] == d[k])
      && (forall k | k in t.data && k !in d :: o.token.data[k] == t.data[k])
    ensures o.failure.None? ==>
      o.events == [Sent(RefreshRequest(t))] + (if t.callback.Some? then [Notified(t.callback.value, o.token)] else [])
    ensures var resp := net(RefreshRequest(t));
      resp.Reply? && resp.body.Some? && !resp.body.value.Hash? ==>
      o.failure == Some(if resp.code == 200 then TypeError else KeyReadError(resp.body.value))
    ensures var resp := net(RefreshRequest(t));
      resp.Reply? && resp.body.Some? && resp.body.value.Hash? && !RefreshAccepted(resp) ==>
      o.failure == Some(RuqqusError("failed to refresh authentication token"))
  {
    var req := RefreshRequest(t);
    match net(req)
    case Failed => Outcome(t, Some(TransportError), [Sent(req)])
    case Reply(code, _, body) =>
      match body
      case None => Outcome(t, Some(ParserError), [Sent(req)])
      case Some(Hash(d)) =>
        if code == 200 || Truthy(Get(d, "oauth_error")) then
          var merged := t.(data := t.data + d);
          var calls := if t.callback.Some? then [Notified(t.callback.value, merged)] else [];
          Outcome(merged, None, [Sent(req)] + calls)
        else Outcome(t, Some(RuqqusError("failed to refresh authentication token")), [Sent(req)])
      case Some(v) => Outcome(t, Some(if code == 200 then TypeError else KeyReadError(v)), [Sent(req)])
  }

  /** A reply that is not 200 but carries `oauth_error` is still merged. */
  lemma OAuthErrorIsMerged(t: Token, net: Network, d: Payload)
    requires net(RefreshRequest(t)) == Reply(400, map[], Some(Hash(d)))
    requires Truthy(Get(d, "oauth_error"))
    ensures Refresh(t, net).failure.None?
    ensures Refresh(t, net).token.data["oauth_error"] == d["oauth_error"]
  {
  }

  /** `on_refresh`: a block is required; it replaces any earlier one. */
  function OnRefresh(t: Token, block: Option<nat>): (r: Result<Token>)
    ensures block.None? ==> r == Err(LocalJumpError("block required"))
    ensures block.Some? ==> r.Ok? && r.value.callback == block
    ensures r.Ok? ==> r.value.data == t.data && r.value.clientId == t.clientId && r.value.clientSecret == t.clientSecret
  {
    if block.None? then Err(LocalJumpError("block required")) else Ok(t.(callback := block))
  }

  /** After `on_refresh`, a successful refresh calls the new block exactly once,
      with the merged token, and never the block it replaced. */
  lemma RefreshCallsRegisteredBlock(t: Token, b: nat, net: Network)
    requires OnRefresh(t, Some(b)).Ok?
    requires RefreshAccepted(net(RefreshRequest(OnRefresh(t, Some(b)).value)))
    ensures var u := OnRefresh(t, Some(b)).value;
      var o := Refresh(u, net);
      o.events == [Sent(RefreshRequest(u)), Notified(b, o.token)]
  {
  }

  /** A token with no block set calls nothing when refreshed. */
  lemma RefreshWithoutBlock(t: Token, net: Network)
    requires t.callback.None?
    ensures forall i | 0 <= i < |Refresh(t, net).events| :: Refresh(t, net).events[i].Sent?
  {
  }

  /** `to_json`, at the level of the JSON document it encodes. */
  function ToJson(t: Token): Value
  {
    Hash(map["client_id" := t.clientId, "client_secret" := t.clientSecret, "data" := Hash(t.data)])
  }

  /** `Token.from_json`, from the decoded document. A document that is not a
      hash fails on its first key read; one whose `data` is not a hash is
      refused, since the token keeps its data as a hash. */
  function FromJson(doc: Value): (r: Result<Token>)
    ensures r.Ok? <==> doc.Hash? && Get(doc.fields, "data").Hash?
    ensures !doc.Hash? ==> r == Err(KeyReadError(doc))
    ensures doc.Hash? && !Get(doc.fields, "data").Hash? ==> r == Err(TypeError)
    ensures r.Ok? ==> (r.value.callback.None?
      && r.value.clientId == Get(doc.fields, "client_id")
      && r.value.clientSecret == Get(doc.fields, "client_secret")
      && r.value.data == Get(doc.fields, "data").fields)
  {
    if !doc.Hash? then Err(KeyReadError(doc))
    else if Get(doc.fields, "data").Hash? then
      Ok(Token(Get(doc.fields, "client_id"), Get(doc.fields, "client_secret"), Get(doc.fields, "data").fields, None))
    else Err(TypeError)
  }

  /** Loading a saved token restores its credentials and data; the callback is
      not saved. */
  lemma JsonRoundTrip(t: Token)
    ensures FromJson(ToJson(t)) == Ok(t.(callback := None))
  {
  }

  /** The request the granting constructor sends. */
  function GrantRequest(clientId: Value, clientSecret: Value, code: Value, persist: bool): Request
  {
    Request(POST, GrantUrl,
      map["code" := code, "client_id" := clientId, "client_secret" := clientSecret,
          "grant_type" := Str("code"), "permanent" := Bool(persist)],
      DefaultHeaders)
  }

  /** `Token.new`: exchanges a code for a token. The status code is not
      consulted; an `oauth_error` in the reply raises. */
  function Grant(clientId: Value, clientSecret: Value, code: Value, persist: bool, net: Network): (r: Result<Token>)
    ensures var resp := net(GrantRequest(clientId, clientSecret, code, persist));
      r.Ok? <==> resp.Reply? && resp.body.Some? && resp.body.value.Hash?
                 && !Truthy(Get(resp.body.value.fields, "oauth_error"))
    ensures var resp := net(GrantRequest(clientId, clientSecret, code, persist));
      (resp.Reply? && resp.body.Some? && resp.body.value.Hash?
       && Truthy(Get(resp.body.value.fields, "oauth_error"))) ==>
      r == Err(RuqqusError("failed to grant access for token"))
    ensures var resp := net(GrantRequest(clientId, clientSecret, code, persist));
      resp.Reply? && resp.body.Some? && !resp.body.value.Hash? ==> r == Err(KeyReadError(resp.body.value))
    ensures r.Ok? ==> (r.value.clientId == clientId && r.value.clientSecret == clientSecret
      && r.value.callback.None?
      && r.value.data == net(GrantRequest(clientId, clientSecret, code, persist)).body.value.fields)
  {
    match net(GrantRequest(clientId, clientSecret, code, persist))
    case Failed => Err(TransportError)
    case Reply(_, _, body) =>
      match body
      case None => Err(ParserError)
      case Some(Hash(d)) =>
        if Truthy(Get(d, "oauth_error")) then Err(RuqqusError("failed to grant access for token"))
        else Ok(Token(clientId, clientSecret, d, None))
      case Some(v) => Err(KeyReadError(v))
  }

  /** The grant ignores the status code: only the body decides. */
  lemma GrantIgnoresStatus(clientId: Value, clientSecret: Value, code: Value, persist: bool,
                           net1: Network, net2: Network, c1: int, c2: int, d: Payload)
    requires net1(GrantRequest(clientId, clientSecret, code, persist)) == Reply(c1, map[], Some(Hash(d)))
    requires net2(GrantRequest(clientId, clientSecret, code, persist)) == Reply(c2, map[], Some(Hash(d)))
    ensures Grant(clientId, clientSecret, code, persist, net1) == Grant(clientId, clientSecret, code, persist, net2)
  {
  }
}

=== FILE: values.dfy ===
/** Decoded JSON as the client handles it (`JSON.parse(..., symbolize_names: true)`),
    Ruby truthiness, and the exceptions the client can raise. */
module Values {
  import opened RubyText

  /** A decoded JSON value. Keys of a Hash are the symbol names as strings. */
  datatype Value =
    | Nil
    | Bool(b: bool)
    | Int(i: int)
    | Str(s: string)
    | Arr(items: seq<Value>)
    | Hash(fields: map<string, Value>)

  /** The `@data` hash every entity and token wraps. */
  type Payload = map<string, Value>

  datatype Option<T> = None | Some(value: T)

  /** The exception classes the modelled code raises. */
  datatype Error =
    | ArgumentError(message: string)
    | RuqqusError(message: string)
    | LocalJumpError(message: string)
    | TypeError
    | NoMethodError
    | ParserError
    | TransportError
    | FileNotFound(path: string)
    | StackOverflow

  datatype Result<T> = Ok(value: T) | Err(error: Error)

  /** `hash[key]`: a missing key reads as nil. */
  function Get(data: Payload, key: string): Value
  {
    if key in data then data[key] else Nil
  }

  /** Ruby truthiness: only nil and false are falsy. */
  predicate Truthy(v: Value)
  {
    !(v.Nil? || v == Bool(false))
  }

  /** `v || fallback`. */
  function OrElse(v: Value, fallback: Value): (r: Value)
    ensures Truthy(v) ==> r == v
    ensures !Truthy(v) ==> r == fallback
  {
    if Truthy(v) then v else fallback
  }

  /** A `rescue` modifier catches StandardError; a stack overflow is not one. */
  predicate Rescuable(e: Error)
  {
    !e.StackOverflow?
  }

  /** String interpolation `"#{v}"`. Arrays and hashes render through `inspect`,
      which the model stands in for with a fixed marker. */
  function ToS(v: Value): string
  {
    match v
    case Nil => ""
    case Bool(b) => if b then "true" else "false"
    case Int(i) => IntToDecimal(i)
    case Str(s) => s
    case Arr(_) => "#<Array>"
    case Hash(_) => "#<Hash>"
  }

  /** `v.empty?`: defined on strings, arrays and hashes only. */
  function IsEmpty(v: Value): (r: Result<bool>)
    ensures r.Ok? <==> (v.Str? || v.Arr? || v.Hash?)
    ensures r == Ok(true) <==> v in {Str(""), Arr([]), Hash(map[])}
  {
    match v
    case Str(s) => Ok(|s| == 0)
    case Arr(items) => Ok(|items| == 0)
    case Hash(fields) => Ok(|fields| == 0)
    case _ => Err(NoMethodError)
  }

  /** Interpolating an Integer and reading it back with `to_i` is the identity. */
  lemma IntRoundTrip(i: int)
    ensures ToI(ToS(Int(i))) == i
  {
    ToIOfDecimal(i);
  }
}
